=== FILE: README.md ===
# FFT sound equaliser: a verified model of its signal core

This project models, in Dafny, the deterministic core of a Java audio player
that equalises a PCM stream with ten peaking filters per channel, gates low
noise, soft-clips, re-encodes the result for playback and draws a spectrum of
every block with a recursive FFT.

It models the following pieces:

- `ComplexNumbers` (`complex.dfy`): the immutable `Complex` value and its arithmetic.
- `PowersOfTwo` (`pow2.dfy`): the bit tricks the transform uses.
  - The test `n & (n - 1)`, modelled with a bitwise AND on naturals.
  - `Integer.highestOneBit`.
  - The next power of two.
- `FFT` (`fft.dfy`): the recursive radix-2 Cooley-Tukey transform and its inverse.
  - It pads automatically to the next power of two.
  - The twiddle factor is a function parameter `w(k, n)`.
- `EqualizerFilter` (`equalizer.dfy`): one biquad peaking band.
  - Its coefficients come from the Audio EQ Cookbook peaking-EQ formulas.
  - It filters with the Direct-Form-I difference equation and shifts its memory.
  - `alpha`, `cos(w0)` and the linear gain `A` are inputs, not computed.
- `PcmCodec` (`pcm.dfy`): the codec of 16-bit signed little-endian interleaved frames.
  - Java's `byte`, `short`, `& 0xFF`, `>> 8`, `(int)` truncation and saturation are written out.
- `GainControl` (`gain.dfy`): the ten-band gain state.
  - The slider-to-dB mapping.
  - The per-block smoothing of `currentDb` toward `targetDb`.
  - Filter construction, and what a seek does to the filter banks.
- `Playback` (`playback.dfy`): the arithmetic of one cycle of the playback loop.
  - Seek-target alignment.
  - The noise gate.
  - Gate, then the cascade of ten filters, then the soft clip, per sample.
  - Windowing and zero padding of the block handed to the FFT.

`double` is modelled as `real`. The transcendental functions are parameters:

- the twiddle factor is `w` (FFT);
- `Math.pow(10, dB/40)` is `amp` (GainControl);
- `Math.tanh` is `clip` (Playback);
- the Hann window value is `window` (Playback).

Every theorem holds for every choice of them, except where a lemma states a
fact it needs, such as `w(0, 2) == 1` or `amp(0) == 1`.

On a seek the code runs `initFilters` under the comment `// Reiniciar filtros`
("reinitialise the filters"), which rebuilds both filter banks at 0 dB and keeps
`currentDb`. The sliders and `targetDb` still hold the chosen gains, and
`updateFiltersSmoothly` pushes a gain only while the gap to the target exceeds
0.01, so it assumes the filters already hold `currentDb`. The model follows the code (`GainControl.SeekAsWritten`) and
records the consequence under Findings.

## Model

| member | source | states |
|---|---|---|
| ComplexNumbers.Add | FFT-SoundEqualizer-NoiseCanceler/src/BEAN/Complex.java:15-17 | the sum is undone by subtracting either summand |
| ComplexNumbers.Sub | FFT-SoundEqualizer-NoiseCanceler/src/BEAN/Complex.java:19-21 | a number minus itself is (0, 0), and subtracting (0, 0) changes nothing |
| ComplexNumbers.Mul | FFT-SoundEqualizer-NoiseCanceler/src/BEAN/Complex.java:23-26 | (0, 0) absorbs, and a factor with zero imaginary part d scales both parts by d |
| ComplexNumbers.Conj | FFT-SoundEqualizer-NoiseCanceler/src/BEAN/FFT.java:66 | a number equals its conjugate exactly when its imaginary part is zero |
| ComplexNumbers.DivReal | FFT-SoundEqualizer-NoiseCanceler/src/BEAN/FFT.java:75 | each part of the quotient times the divisor gives that part of the dividend back |
| ComplexNumbers.AddSubParts | FFT-SoundEqualizer-NoiseCanceler/src/BEAN/Complex.java:15-21 | add and subtract act part by part, and `a.add(b).subtract(b) == a` (and the other order) |
| ComplexNumbers.AddLaws | FFT-SoundEqualizer-NoiseCanceler/src/BEAN/Complex.java:15-17 | addition is commutative and associative with unit (0, 0) |
| ComplexNumbers.MulLaws | FFT-SoundEqualizer-NoiseCanceler/src/BEAN/Complex.java:23-26 | multiplication is commutative, (1, 0) is its unit and (0, 0) absorbs |
| ComplexNumbers.MulDistributes | FFT-SoundEqualizer-NoiseCanceler/src/BEAN/Complex.java:15-26 | multiply distributes over add and subtract, which the linearity proof of the transform rests on |
| ComplexNumbers.ConjLaws | FFT-SoundEqualizer-NoiseCanceler/src/BEAN/FFT.java:65-67 | the conjugation the inverse builds commutes with addition, is an involution and fixes zero |
| PowersOfTwo.BitAnd | FFT-SoundEqualizer-NoiseCanceler/src/BEAN/FFT.java:19 | `a & b` of non-negative values is at most either operand |
| PowersOfTwo.Pow2TestCorrect | FFT-SoundEqualizer-NoiseCanceler/src/BEAN/FFT.java:19 | for n >= 1, `n & (n - 1)` is zero exactly for powers of two |
| PowersOfTwo.PassesPow2Test | FFT-SoundEqualizer-NoiseCanceler/src/BEAN/FFT.java:19 | length 0 passes the test (`0 & -1` is 0); a positive length passes exactly when it is a power of two |
| PowersOfTwo.HighestOneBit | FFT-SoundEqualizer-NoiseCanceler/src/BEAN/FFT.java:21 | `highestOneBit(n)` is a power of two h with h <= n < 2h |
| PowersOfTwo.NextPow2 | FFT-SoundEqualizer-NoiseCanceler/src/BEAN/FFT.java:19-21 | reference: the least power of two at least n, equal to n exactly when n is a power of two |
| PowersOfTwo.PaddedLengthIsNextPow2 | FFT-SoundEqualizer-NoiseCanceler/src/BEAN/FFT.java:21 | for a non-power-of-two n, `highestOneBit(n) << 1` is that least power of two |
| PowersOfTwo.HalfOfPow2 | FFT-SoundEqualizer-NoiseCanceler/src/BEAN/FFT.java:39-48 | halving a power of two of at least 2 gives an even split into power-of-two halves |
| FFT.Pad | FFT-SoundEqualizer-NoiseCanceler/src/BEAN/FFT.java:24-31 | the padded array keeps the n inputs in place and holds (0, 0) at every index in [n, m) |
| FFT.Evens | FFT-SoundEqualizer-NoiseCanceler/src/BEAN/FFT.java:39-45 | the even half has n/2 entries, entry k being x[2k] |
| FFT.Odds | FFT-SoundEqualizer-NoiseCanceler/src/BEAN/FFT.java:39-45 | the odd half has n/2 entries, entry k being x[2k + 1] |
| FFT.Butterfly | FFT-SoundEqualizer-NoiseCanceler/src/BEAN/FFT.java:50-56 | combining two halves of n/2 transforms yields n values |
| FFT.Fft | FFT-SoundEqualizer-NoiseCanceler/src/BEAN/FFT.java:11-58 | for n >= 1 the output length is the least power of two at least n, and equals n exactly when n is a power of two |
| FFT.EmptyInputRecursesForever | FFT-SoundEqualizer-NoiseCanceler/src/BEAN/FFT.java:12-48 | length 0 passes the power-of-two test and recurses on two empty halves; every positive length recurses only on smaller positive lengths |
| FFT.FftSingleton | FFT-SoundEqualizer-NoiseCanceler/src/BEAN/FFT.java:15 | a one-element input comes back unchanged |
| FFT.FftPadsToNextPow2 | FFT-SoundEqualizer-NoiseCanceler/src/BEAN/FFT.java:19-35 | a non-power-of-two input transforms as its zero-padded copy |
| FFT.FftSplits | FFT-SoundEqualizer-NoiseCanceler/src/BEAN/FFT.java:39-57 | on a power-of-two length >= 2 the result is the butterfly of the transforms of the even and odd halves |
| FFT.ButterflyHalves | FFT-SoundEqualizer-NoiseCanceler/src/BEAN/FFT.java:50-56 | the butterfly writes q[k] + w r[k] at k and q[k] - w r[k] at k + n/2 |
| FFT.FftButterflyEquations | FFT-SoundEqualizer-NoiseCanceler/src/BEAN/FFT.java:39-56 | y[k] = q[k] + w(k,n) r[k] and y[k+n/2] = q[k] - w(k,n) r[k] for the transforms q, r of the halves |
| FFT.FftLinear | FFT-SoundEqualizer-NoiseCanceler/src/BEAN/FFT.java:19-57 | fft(a + b) == fft(a) + fft(b) elementwise for equal-length inputs, for any twiddles |
| FFT.FftOfZeros | FFT-SoundEqualizer-NoiseCanceler/src/BEAN/FFT.java:24-56 | an all-zero input of any length >= 1 gives an all-zero output of the padded length |
| FFT.ConjAll | FFT-SoundEqualizer-NoiseCanceler/src/BEAN/FFT.java:65-67 | the first step of the inverse: same length, each entry conjugated |
| FFT.Unconjugate | FFT-SoundEqualizer-NoiseCanceler/src/BEAN/FFT.java:73-76 | the last step of the inverse: the first n entries only, conjugated and divided by n |
| FFT.Ifft | FFT-SoundEqualizer-NoiseCanceler/src/BEAN/FFT.java:60-78 | the inverse returns exactly n elements |
| FFT.IfftLinear | FFT-SoundEqualizer-NoiseCanceler/src/BEAN/FFT.java:60-78 | the inverse is additive too |
| FFT.IfftScalesByInputLength | FFT-SoundEqualizer-NoiseCanceler/src/BEAN/FFT.java:60-77 | for non-power-of-two n the inverse is P/n times the inverse of the padded input on the first n entries, since it divides by n instead of P |
| FFT.IfftOfPadded | FFT-SoundEqualizer-NoiseCanceler/src/BEAN/FFT.java:60-77 | the inverse of x and of its padded copy divide the same forward result, by n and by P |
| FFT.ScaleChange | FFT-SoundEqualizer-NoiseCanceler/src/BEAN/FFT.java:75 | dividing by n instead of p scales each entry by p/n |
| FFT.RoundTripLengthOne | FFT-SoundEqualizer-NoiseCanceler/src/BEAN/FFT.java:60-77 | ifft(fft(x)) == x for one element |
| FFT.FftOfTwo | FFT-SoundEqualizer-NoiseCanceler/src/BEAN/FFT.java:39-56 | with w(0, 2) == 1, fft([a, b]) == [a + b, a - b] |
| FFT.IfftOfTwo | FFT-SoundEqualizer-NoiseCanceler/src/BEAN/FFT.java:60-77 | with w(0, 2) == 1, the inverse of [p, q] is the halved conjugate sum and difference |
| FFT.RoundTripLengthTwo | FFT-SoundEqualizer-NoiseCanceler/src/BEAN/FFT.java:60-77 | ifft(fft(x)) == x for two elements when w(0, 2) == 1 |
| EqualizerFilter.PeakingCoeffs | FFT-SoundEqualizer-NoiseCanceler/src/BEAN/EqualizerFilter.java:33-38 | b1 == a1 for every gain; at A == 1 the response is flat (b0 == 1, b2 == a2) |
| EqualizerFilter.FlatExactlyAtUnitGain | FFT-SoundEqualizer-NoiseCanceler/src/BEAN/EqualizerFilter.java:33-38 | the coefficients are flat exactly when A == 1 (0 dB) or alpha == 0 |
| EqualizerFilter.NewFilter | FFT-SoundEqualizer-NoiseCanceler/src/BEAN/EqualizerFilter.java:15-19 | a new filter has flat coefficients and all four memory cells zero |
| EqualizerFilter.UpdateGain | FFT-SoundEqualizer-NoiseCanceler/src/BEAN/EqualizerFilter.java:26-39 | only the five coefficients change; the memory and the band are untouched |
| EqualizerFilter.Output | FFT-SoundEqualizer-NoiseCanceler/src/BEAN/EqualizerFilter.java:48 | from zero memory the output is b0 times the input; a flat filter with balanced memory passes the input through |
| EqualizerFilter.Process | FFT-SoundEqualizer-NoiseCanceler/src/BEAN/EqualizerFilter.java:46-57 | memory shifts as x2' = x1, x1' = input, y2' = y1, y1' = output; coefficients unchanged |
| EqualizerFilter.FlatProcessIsIdentity | FFT-SoundEqualizer-NoiseCanceler/src/BEAN/EqualizerFilter.java:48-54 | a flat filter with x1 == y1, x2 == y2 returns its input and keeps that balance |
| EqualizerFilter.SilenceStaysSilent | FFT-SoundEqualizer-NoiseCanceler/src/BEAN/EqualizerFilter.java:48-54 | a zero input with zero memory gives zero output and leaves the memory zero |
| EqualizerFilter.Run | FFT-SoundEqualizer-NoiseCanceler/src/BEAN/EqualizerFilter.java:46-57 | reference: filtering a sequence sample by sample keeps its length and the coefficients |
| EqualizerFilter.FlatRunIsIdentity | FFT-SoundEqualizer-NoiseCanceler/src/BEAN/EqualizerFilter.java:48-54 | a flat filter started from balanced (for instance zero) memory is the identity on every input sequence |
| EqualizerFilter.ProcessBlock | FFT-SoundEqualizer-NoiseCanceler/src/BEAN/EqualizerFilter.java:46-57 | the in-place loop over a block computes the reference `Run`, and is the identity for a flat filter from balanced memory |
| PcmCodec.ToShort | FFT-SoundEqualizer-NoiseCanceler/src/UI/AudioController.java:240 | the `(short)` cast gives a value in [-32768, 32767] congruent to its argument mod 65536, and is the identity inside that range |
| PcmCodec.ToByte | FFT-SoundEqualizer-NoiseCanceler/src/UI/AudioController.java:258-259 | the `(byte)` cast is congruent to its argument mod 256 |
| PcmCodec.Unsigned | FFT-SoundEqualizer-NoiseCanceler/src/UI/AudioController.java:240 | `b & 0xFF` is b for non-negative bytes and b + 256 otherwise |
| PcmCodec.UnpackSample | FFT-SoundEqualizer-NoiseCanceler/src/UI/AudioController.java:240 | an unpacked sample lies in [-32768, 32767] |
| PcmCodec.LowByte | FFT-SoundEqualizer-NoiseCanceler/src/UI/AudioController.java:258 | the unsigned value of the low byte is v mod 256 |
| PcmCodec.HighByte | FFT-SoundEqualizer-NoiseCanceler/src/UI/AudioController.java:259 | for a 16-bit v the high byte h satisfies v == 256 h + (v mod 256) |
| PcmCodec.Decoded | FFT-SoundEqualizer-NoiseCanceler/src/UI/AudioController.java:241 | a 16-bit value decodes into [-1, 1), and 32768 times the decoded value is the value |
| PcmCodec.PackThenUnpack | FFT-SoundEqualizer-NoiseCanceler/src/UI/AudioController.java:240-259 | packing v in [-32768, 32767] as in encode and unpacking as in decode gives v back |
| PcmCodec.UnpackThenPack | FFT-SoundEqualizer-NoiseCanceler/src/UI/AudioController.java:240-259 | unpacking two bytes and packing the value gives the same bytes back |
| PcmCodec.TruncToInt | FFT-SoundEqualizer-NoiseCanceler/src/UI/AudioController.java:256 | `(int)` of a double truncates toward zero |
| PcmCodec.Clamp16 | FFT-SoundEqualizer-NoiseCanceler/src/UI/AudioController.java:257 | saturation lands in [-32768, 32767], is the identity inside it and pins values outside to the nearer bound |
| PcmCodec.Quantize | FFT-SoundEqualizer-NoiseCanceler/src/UI/AudioController.java:256-257 | every packed sample lies in [-32768, 32767]; samples at or beyond full scale saturate |
| PcmCodec.QuantizeError | FFT-SoundEqualizer-NoiseCanceler/src/UI/AudioController.java:256 | inside [-1, 1] quantisation loses less than one step |
| PcmCodec.DecodeThenEncode | FFT-SoundEqualizer-NoiseCanceler/src/UI/AudioController.java:241-256 | decoding by 32768 and encoding by 32767 moves every non-zero value one step toward zero |
| PcmCodec.FrameBytes | FFT-SoundEqualizer-NoiseCanceler/src/UI/AudioController.java:255-265 | a frame holds the left sample, the right sample when stereo, and zero bytes for any other channel |
| PcmCodec.FrameRoundTrip | FFT-SoundEqualizer-NoiseCanceler/src/UI/AudioController.java:240-264 | decoding an encoded frame yields the quantised samples of the channels it carries |
| PcmCodec.WholeFrames | FFT-SoundEqualizer-NoiseCanceler/src/UI/AudioController.java:237-239 | bytesRead / frameSize whole frames fit in the bytes read, and every frame ends within them |
| PcmCodec.DecodeBytesToDoubles | FFT-SoundEqualizer-NoiseCanceler/src/UI/AudioController.java:234-248 | returns bytesRead / (2 channels) frames, every byte read lies below frames * frameSize <= bytesRead, each sample is its decoded 16-bit value, other entries and mono right samples are untouched |
| PcmCodec.EncodeDoublesToBytes | FFT-SoundEqualizer-NoiseCanceler/src/UI/AudioController.java:250-268 | the output has frames * frameSize bytes and frame i is the encoding of left[i] and, when stereo, right[i] |
| PcmCodec.AppendFrame | FFT-SoundEqualizer-NoiseCanceler/src/UI/AudioController.java:253-255 | appending a frame keeps the earlier frames in place |
| PcmCodec.WriteLengthFitsEncodedBlock | FFT-SoundEqualizer-NoiseCanceler/src/UI/AudioController.java:209-210 | the bytesRead bytes written lie inside the encoded block exactly when bytesRead is frame-aligned |
| PcmCodec.FramesFitSampleArrays | FFT-SoundEqualizer-NoiseCanceler/src/UI/AudioController.java:123 | a read into the 2 * BUFFER_SIZE buffer never yields more than BUFFER_SIZE frames |
| GainControl.SliderToDb | FFT-SoundEqualizer-NoiseCanceler/src/UI/AudioController.java:107 | slider values in [0, 100] give gains in [-24, 24] dB; 50 gives 0 dB |
| GainControl.SliderMapping | FFT-SoundEqualizer-NoiseCanceler/src/UI/AudioController.java:107 | the slider maps linearly and increasingly, [0, 100] exactly onto [-24, 24] dB, with 50 at 0 dB |
| GainControl.SetBandGain | FFT-SoundEqualizer-NoiseCanceler/src/UI/AudioController.java:105-109 | an out-of-range index changes nothing; otherwise only that band's target changes, to the mapped dB |
| GainControl.SmoothBand | FFT-SoundEqualizer-NoiseCanceler/src/UI/AudioController.java:226-227 | a band with gap over 0.01 closes 20% of it (new gap 0.8 times the old) without overshoot; others stay put |
| GainControl.UpdateFiltersSmoothly | FFT-SoundEqualizer-NoiseCanceler/src/UI/AudioController.java:224-232 | each moving band pushes its new gain into its left filter and, only when stereo, its right filter; every other band and filter is untouched |
| GainControl.SmoothingKeepsGainsApplied | FFT-SoundEqualizer-NoiseCanceler/src/UI/AudioController.java:224-232 | smoothing keeps each filter holding the coefficients of its band's `currentDb` |
| GainControl.SmoothTimes | FFT-SoundEqualizer-NoiseCanceler/src/UI/AudioController.java:173 | repeated smoothing keeps targets, channel count and admissible banks |
| GainControl.SmoothingConverges | FFT-SoundEqualizer-NoiseCanceler/src/UI/AudioController.java:226-227 | with a fixed target the gap never grows and after n blocks is at most max(0.01, 0.8^n times the initial gap) |
| GainControl.SmoothTimesBand | FFT-SoundEqualizer-NoiseCanceler/src/UI/AudioController.java:224-232 | a band's gain after n blocks is the band-level iteration of its own gain |
| GainControl.InitFilters | FFT-SoundEqualizer-NoiseCanceler/src/UI/AudioController.java:57-65 | both banks are rebuilt flat with zero memory; target and current gains are kept |
| GainControl.Initial | FFT-SoundEqualizer-NoiseCanceler/src/UI/AudioController.java:51-65 | the start state has every target and current gain at 0 dB and both banks flat with silent memory, each band on its design |
| GainControl.InitialGainsApplied | FFT-SoundEqualizer-NoiseCanceler/src/UI/AudioController.java:51-65 | at start every filter holds the coefficients of its recorded gain, which `Initial` states is 0 dB |
| GainControl.SeekAsWritten | FFT-SoundEqualizer-NoiseCanceler/src/UI/AudioController.java:156 | a seek leaves targets and current gains alone and makes every filter of both banks flat with zero memory, on its design |
| GainControl.SeekAsWrittenLosesConvergedGain | FFT-SoundEqualizer-NoiseCanceler/src/UI/AudioController.java:156 | after a seek a converged band at a non-zero gain stays flat in the left bank, and in the right bank, for any number of blocks, so filters no longer hold `currentDb` |
| GainControl.StillFlat | FFT-SoundEqualizer-NoiseCanceler/src/UI/AudioController.java:224-232 | a flat filter of a band within the threshold stays flat under smoothing, in either bank |
| GainControl.SeekResettingMemory | FFT-SoundEqualizer-NoiseCanceler/src/UI/AudioController.java:155-156 | corrected seek: every filter keeps its band and coefficients and its memory becomes zero |
| GainControl.SeekResettingMemoryKeepsGains | FFT-SoundEqualizer-NoiseCanceler/src/UI/AudioController.java:155-156 | after the corrected seek the filters hold the recorded gains after any number of blocks |
| GainControl.SmoothTimesKeepsGains | FFT-SoundEqualizer-NoiseCanceler/src/UI/AudioController.java:224-232 | any number of smoothing steps keeps filters holding the recorded gains |
| Playback.SeekByte | FFT-SoundEqualizer-NoiseCanceler/src/UI/AudioController.java:138-139 | a slider value in [0, max] points into [0, totalBytes]: 0 at the start, max at the end |
| Playback.JavaQuot | FFT-SoundEqualizer-NoiseCanceler/src/UI/AudioController.java:143 | long division truncates toward zero: b q lies within one divisor of a on a's side of zero |
| Playback.JavaRem | FFT-SoundEqualizer-NoiseCanceler/src/UI/AudioController.java:143 | `%` takes the sign of the dividend and is smaller than the divisor in magnitude |
| Playback.AlignToFrame | FFT-SoundEqualizer-NoiseCanceler/src/UI/AudioController.java:142-143 | the aligned target is a multiple of frameSize, between zero and the target, and less than one frame from it |
| Playback.SeekTarget | FFT-SoundEqualizer-NoiseCanceler/src/UI/AudioController.java:138-143 | the seek lands on a whole number of frames and, for a non-negative pointed byte, not past it |
| Playback.SeekTargetInStream | FFT-SoundEqualizer-NoiseCanceler/src/UI/AudioController.java:138-143 | for a slider value in [0, max] the seek lands on a frame boundary in [0, totalBytes], at most one frame before the pointed byte |
| Playback.FractionOfWhole | FFT-SoundEqualizer-NoiseCanceler/src/UI/AudioController.java:138-139 | totalBytes times a fraction in [0, 1] lies in [0, totalBytes] |
| Playback.Gate | FFT-SoundEqualizer-NoiseCanceler/src/UI/AudioController.java:177-181 | the gate keeps the sign of a sample and never amplifies it |
| Playback.GateProperties | FFT-SoundEqualizer-NoiseCanceler/src/UI/AudioController.java:177-181 | a sample below 0.001 in magnitude becomes 0.1 times itself; the gate changes a sample exactly when it is non-zero and below the threshold; sign kept, never amplifies |
| Playback.Cascade | FFT-SoundEqualizer-NoiseCanceler/src/UI/AudioController.java:183 | the cascade advances every band of the channel and changes no band's coefficients |
| Playback.FlatCascadeIsIdentity | FFT-SoundEqualizer-NoiseCanceler/src/UI/AudioController.java:183 | a bank of flat filters with balanced memory passes a sample through |
| Playback.SilentCascade | FFT-SoundEqualizer-NoiseCanceler/src/UI/AudioController.java:183 | silence through silent memory stays silence whatever the gains |
| Playback.ProcessFrame | FFT-SoundEqualizer-NoiseCanceler/src/UI/AudioController.java:176-190 | a mono frame leaves the right sample and the right bank untouched |
| Playback.ProcessFrom | FFT-SoundEqualizer-NoiseCanceler/src/UI/AudioController.java:176-190 | only samples below framesProcessed are rewritten |
| Playback.FlatChainOnlyClips | FFT-SoundEqualizer-NoiseCanceler/src/UI/AudioController.java:176-190 | with all bands flat and the gate off, each output is tanh of its input; a mono right channel is untouched |
| Playback.InitialChainOnlyClips | FFT-SoundEqualizer-NoiseCanceler/src/UI/AudioController.java:176-190 | right after start the gate-off loop only soft-clips |
| Playback.SilenceInSilenceOut | FFT-SoundEqualizer-NoiseCanceler/src/UI/AudioController.java:176-190 | silence in, with zero memory and the gate on, gives silence out and keeps memory zero |
| Playback.MonoMix | FFT-SoundEqualizer-NoiseCanceler/src/UI/AudioController.java:195 | mono takes the left sample; stereo gives a value between the two samples |
| Playback.VisSignal | FFT-SoundEqualizer-NoiseCanceler/src/UI/AudioController.java:193-205 | the block has length BUFFER_SIZE when shorter; its prefix is the windowed mono mix at full scale, its tail zero, and all imaginary parts zero |
| Playback.BufferSizeIsPow2 | FFT-SoundEqualizer-NoiseCanceler/src/UI/AudioController.java:29 | 4096 is a power of two |
| Playback.SpectrumHasBufferSizeBins | FFT-SoundEqualizer-NoiseCanceler/src/UI/AudioController.java:200-207 | the transform always receives and returns exactly BUFFER_SIZE values |
| Playback.SilentBlockHasZeroSpectrum | FFT-SoundEqualizer-NoiseCanceler/src/UI/AudioController.java:193-207 | a silent or empty block has an all-zero spectrum |

## Left out

- The playback thread is not modelled: the `run` loop orchestration, play/pause/reset, `Thread.sleep` and the `volatile` seek and scrubbing flags are concurrency and control flow.
- Audio I/O is not modelled. This covers opening, reopening and skipping the stream, `read` (and its end-of-stream `-1`), and `write`, `flush` and `drain` on the sink. These are library calls; the model takes the bytes read as input.
- The user interface is not modelled: `drawWaves`, `clearPanels`, and publishing `currentBytes` and progress to the slider are Swing rendering.
- `Math.pow`, `sin`, `cos`, `tanh` and the Hann window are parameters, as is the twiddle factor. `Complex.abs` and `getPhase` need `sqrt` and `atan2` and are not modelled.
- IEEE-754 rounding is not modelled: all `double` arithmetic is exact `real` arithmetic. The window's `0/0` NaN for a one-frame block is not modelled either.
- GainControl.UpdateFiltersSmoothly: with the smoothing and seek lemmas, it requires every band to be admissible at every gain `amp` yields. The real `10^(dB/40)` meets this only for bands with alpha >= 0. Since alpha = sin(2 pi f / fs) / (2 Q), a band of frequency f has alpha < 0 exactly when f mod fs lies strictly between fs/2 and fs. At the usual sample rates this is the 16000 Hz band for 16000 < fs < 32000 (for instance 22050 and 24000 Hz) and the 8000 Hz band for 8000 < fs < 16000 (for instance 11025 and 12000 Hz); at 44100 and 48000 Hz no band is affected. For the 16000 Hz band at 22050 Hz, and the 8000 Hz band at 11025 Hz, alpha is about -0.35. Such a band has one gain, about -18.2 dB, where `A + alpha == 0` and EqualizerFilter.java:33 divides by zero. For such bands `amp` stands for `10^(dB/40)` only on the gains actually applied.
- PcmCodec.DecodeBytesToDoubles: requires at least one channel. With zero channels the source would divide by zero at AudioController.java:237, but the line is opened with the stream's format first (AudioController.java:119-120).
- PcmCodec.EncodeDoublesToBytes: requires at least one channel, for the same reason; with zero channels every frame would be empty.
- EqualizerFilter.PeakingCoeffs: requires A > 0 and A + alpha != 0, where the source would divide by zero and produce infinities.
- FFT.Fft: requires a non-empty input. On the empty array the source recurses without bound until the stack overflows (a `StackOverflowError`, which the `catch (Exception e)` of the playback thread does not catch), which `FFT.EmptyInputRecursesForever` states instead.
- PowersOfTwo.HighestOneBit: lengths are unbounded, so the 32-bit overflow of `highestOneBit(n) << 1` for n above 2^30 is not modelled.
- FFT.RoundTripLengthTwo: the general `ifft(fft(x)) == x` needs the root-of-unity identities of the twiddle factors, which are not assumed; only lengths 1 and 2 are proved.
- Playback.SeekTargetInStream: slider values outside [0, max] and a frame size below 1 are not covered. An unknown frame size (`NOT_SPECIFIED`) is not covered either.
- Playback.SeekByte: the `(long)` of the product is exact here, so rounding of `totalBytes * percent` in doubles is not modelled.
- Band centre frequencies and the sample rate reach the model only through each band's `Design` (alpha and cos w0).
- The failure path of a seek (an exception while reopening the stream) is not modelled.

## Findings

| source | as written | input that shows it | evidently intended | confidence | as-written member | corrected member |
|---|---|---|---|---|---|---|
| FFT-SoundEqualizer-NoiseCanceler/src/UI/AudioController.java:156 | A seek calls `initFilters`, which rebuilds every filter of both banks at 0 dB but keeps `currentDb`; for stereo the right channel loses its gain as the left one does. Smoothing only pushes a gain while the gap exceeds 0.01 (line 226). The same happens when playback starts again: line 116 re-runs `initFilters` on every playback after the first, while `currentDb` keeps the converged gains. | Set a band to +12 dB (slider 75) and play until its gap to the target is within 0.01. Then seek. The band's filters stay flat for the rest of playback while `currentDb` still says about +12 dB. | A seek clears filter memory and keeps every filter's coefficients at its recorded gain. | not executed; follows from the proved lemma | GainControl.SeekAsWrittenLosesConvergedGain | GainControl.SeekResettingMemoryKeepsGains |

=== FILE: complex.dfy ===
/**
  Immutable complex numbers over exact reals.

  A value is never mutated: every operation builds a new `Complex`, which is
  what a Dafny datatype gives for free. Magnitude and phase need `sqrt` and
  `atan2` and are not part of this model.
*/
module ComplexNumbers {

  datatype Complex = Complex(re: real, im: real)

  const Zero: Complex := Complex(0.0, 0.0)
  const One: Complex := Complex(1.0, 0.0)

  /** Subtraction: a number minus itself is zero, and subtracting zero changes nothing. */
  function Sub(a: Complex, b: Complex): (d: Complex)
    ensures a == b ==> d == Zero
    ensures b == Zero ==> d == a
  {
    Complex(a.re - b.re, a.im - b.im)
  }

  /** Addition, undone by subtracting either summand. */
  function Add(a: Complex, b: Complex): (s: Complex)
    ensures Sub(s, b) == a && Sub(s, a) == b
  {
    Complex(a.re + b.re, a.im + b.im)
  }

  /**
    Multiplication: zero absorbs, and a real factor scales both parts.
  */
  function Mul(a: Complex, b: Complex): (p: Complex)
    ensures a == Zero || b == Zero ==> p == Zero
    ensures b.im == 0.0 ==> p == Complex(a.re * b.re, a.im * b.re)
  {
    Complex(a.re * b.re - a.im * b.im, a.re * b.im + a.im * b.re)
  }

  /**
    The conjugate, as the inverse transform builds it before and after the
    forward one: a number is its own conjugate exactly when it is real.
  */
  function Conj(a: Complex): (c: Complex)
    ensures c == a <==> a.im == 0.0
  {
    Complex(a.re, -a.im)
  }

  /**
    Division of both parts by a real, as the inverse transform scales its
    result; multiplying back by the divisor restores the number.
  */
  function DivReal(a: Complex, d: real): (q: Complex)
    requires d != 0.0
    ensures q.re * d == a.re && q.im * d == a.im
  {
    Complex(a.re / d, a.im / d)
  }

  /** Adding and subtracting act part by part and undo each other. */
  lemma AddSubParts(a: Complex, b: Complex)
    ensures Add(a, b).re == a.re + b.re && Add(a, b).im == a.im + b.im
    ensures Sub(a, b).re == a.re - b.re && Sub(a, b).im == a.im - b.im
    ensures Sub(Add(a, b), b) == a
    ensures Add(Sub(a, b), b) == a
  {
  }

  /** Addition is commutative and associative and has `Zero` as unit. */
  lemma AddLaws(a: Complex, b: Complex, c: Complex)
    ensures Add(a, b) == Add(b, a)
    ensures Add(Add(a, b), c) == Add(a, Add(b, c))
    ensures Add(a, Zero) == a
  {
  }

  /** Multiplication is commutative, has `One` as unit and `Zero` as absorbing element. */
  lemma MulLaws(a: Complex, b: Complex)
    ensures Mul(a, b) == Mul(b, a)
    ensures Mul(a, One) == a && Mul(One, a) == a
    ensures Mul(a, Zero) == Zero && Mul(Zero, a) == Zero
  {
  }

  /** Multiplication distributes over addition and subtraction. */
  lemma MulDistributes(w: Complex, a: Complex, b: Complex)
    ensures Mul(w, Add(a, b)) == Add(Mul(w, a), Mul(w, b))
    ensures Mul(w, Sub(a, b)) == Sub(Mul(w, a), Mul(w, b))
  {
    MulOverAdd(w, a, b);
    MulOverSub(w, a, b);
  }

  lemma MulOverAdd(w: Complex, a: Complex, b: Complex)
    ensures Mul(w, Add(a, b)) == Add(Mul(w, a), Mul(w, b))
  {
    var s := Add(a, b);
    assert s.re == a.re + b.re && s.im == a.im + b.im;
    Distributes(w.re, a.re, b.re);
    Distributes(w.im, a.im, b.im);
    Distributes(w.re, a.im, b.im);
    Distributes(w.im, a.re, b.re);
    var l, r := Mul(w, s), Add(Mul(w, a), Mul(w, b));
    assert l.re == r.re && l.im == r.im;
  }

  lemma MulOverSub(w: Complex, a: Complex, b: Complex)
    ensures Mul(w, Sub(a, b)) == Sub(Mul(w, a), Mul(w, b))
  {
    var s := Sub(a, b);
    assert s.re == a.re - b.re && s.im == a.im - b.im;
    Distributes(w.re, a.re, b.re);
    Distributes(w.im, a.im, b.im);
    Distributes(w.re, a.im, b.im);
    Distributes(w.im, a.re, b.re);
    var l, r := Mul(w, s), Sub(Mul(w, a), Mul(w, b));
    assert l.re == r.re && l.im == r.im;
  }

  lemma Distributes(x: real, y: real, z: real)
    ensures x * (y + z) == x * y + x * z
    ensures x * (y - z) == x * y - x * z
  {
  }

  /**
    Conjugation commutes with addition and is an involution; a number plus
    its conjugate is twice its real part.
  */
  lemma ConjLaws(a: Complex, b: Complex)
    ensures Conj(Add(a, b)) == Add(Conj(a), Conj(b))
    ensures Add(a, Conj(a)) == Complex(2.0 * a.re, 0.0)
    ensures Conj(Conj(a)) == a
    ensures Conj(Zero) == Zero
  {
  }
}

=== FILE: equalizer.dfy ===
/**
  One biquad peaking-EQ band: coefficients from the Audio EQ Cookbook
  peaking-EQ formulas and the Direct-Form-I difference equation.

  `pow`, `sin` and `cos` are not computed here. A band's fixed frequency,
  sample rate and quality factor Q (1.41, about one octave)
  enter only through `alpha = sin(w0) / (2 Q)` and
  `cos(w0)`, kept in its `Design`; a gain enters only through
  `A = 10^(dB / 40)`, passed in as a real.
*/
module EqualizerFilter {

  /** The gain-independent quantities of a band: sin(w0) / (2 Q) and cos(w0). */
  datatype Design = Design(alpha: real, cosw0: real)

  datatype Coeffs = Coeffs(b0: real, b1: real, b2: real, a1: real, a2: real)

  /** Last two inputs (x1, x2) and last two outputs (y1, y2). */
  datatype Memory = Memory(x1: real, x2: real, y1: real, y2: real)

  datatype Filter = Filter(design: Design, c: Coeffs, m: Memory)

  const Silence: Memory := Memory(0.0, 0.0, 0.0, 0.0)

  /**
    A gain A is usable for a design when A > 0 (as 10^(dB/40) always is) and
    the normaliser 1 + alpha / A is not zero; otherwise the source would
    divide by zero.
  */
  predicate Admissible(d: Design, A: real) {
    A > 0.0 && A + d.alpha != 0.0
  }

  /** A filter whose response is flat: with balanced memory it passes its input through. */
  predicate IsFlat(c: Coeffs) {
    c.b0 == 1.0 && c.b1 == c.a1 && c.b2 == c.a2
  }

  /** The peaking-EQ coefficients for linear gain A. */
  function PeakingCoeffs(d: Design, A: real): (c: Coeffs)
    requires Admissible(d, A)
    ensures c.b1 == c.a1
    ensures A == 1.0 ==> IsFlat(c)
  {
    var norm := 1.0 + d.alpha / A;
    Coeffs((1.0 + d.alpha * A) / norm,
           (-2.0 * d.cosw0) / norm,
           (1.0 - d.alpha * A) / norm,
           (-2.0 * d.cosw0) / norm,
           (1.0 - d.alpha / A) / norm)
  }

  /**
    The response is flat exactly at 0 dB, unless alpha is 0, where every gain
    gives the same coefficients.
  */
  lemma FlatExactlyAtUnitGain(d: Design, A: real)
    requires Admissible(d, A)
    ensures IsFlat(PeakingCoeffs(d, A)) <==> (A == 1.0 || d.alpha == 0.0)
  {
    var norm := 1.0 + d.alpha / A;
    var c := PeakingCoeffs(d, A);
    assert norm * A == A + d.alpha;
    assert norm != 0.0;
    var t := d.alpha / A;
    assert t * A == d.alpha;
    if c.b0 == 1.0 {
      assert 1.0 + d.alpha * A == norm;
      assert d.alpha * A == t;
      assert d.alpha * A * A == t * A;
      assert d.alpha * (A * A - 1.0) == 0.0;
      if d.alpha != 0.0 {
        ZeroProduct(d.alpha, A * A - 1.0);
        ZeroProduct(A - 1.0, A + 1.0);
      }
    }
    if d.alpha == 0.0 {
      assert norm == 1.0;
    }
  }

  lemma ZeroProduct(a: real, b: real)
    requires a * b == 0.0
    ensures a == 0.0 || b == 0.0
  {
    if a != 0.0 {
      assert b == (a * b) / a;
    }
  }

  /** The constructor: flat (0 dB, A == 1) coefficients and silent memory. */
  function NewFilter(d: Design): (f: Filter)
    requires Admissible(d, 1.0)
    ensures f.design == d
    ensures IsFlat(f.c) && f.m == Silence
  {
    Filter(d, PeakingCoeffs(d, 1.0), Silence)
  }

  /** Recomputes the coefficients for linear gain A; design and memory are untouched. */
  function UpdateGain(f: Filter, A: real): (g: Filter)
    requires Admissible(f.design, A)
    ensures g.design == f.design && g.m == f.m
    ensures g.c.b1 == g.c.a1
    ensures A == 1.0 ==> IsFlat(g.c)
  {
    f.(c := PeakingCoeffs(f.design, A))
  }

  /**
    The Direct-Form-I output for input x from the current memory: from
    silence it is the input scaled by b0, and a flat filter with balanced
    memory passes the input through.
  */
  function Output(c: Coeffs, m: Memory, x: real): (y: real)
    ensures m == Silence ==> y == c.b0 * x
    ensures IsFlat(c) && Balanced(m) ==> y == x
  {
    c.b0 * x + c.b1 * m.x1 + c.b2 * m.x2 - c.a1 * m.y1 - c.a2 * m.y2
  }

  /** Filters one sample: the output, and the filter with its memory shifted by one step. */
  function Process(f: Filter, x: real): (r: (real, Filter))
    ensures r.1.design == f.design && r.1.c == f.c
    ensures r.1.m.x2 == f.m.x1 && r.1.m.x1 == x
    ensures r.1.m.y2 == f.m.y1 && r.1.m.y1 == r.0
  {
    var y := Output(f.c, f.m, x);
    (y, f.(m := Memory(x, f.m.x1, y, f.m.y1)))
  }

  /** Memory whose input history equals its output history, as a flat filter keeps it. */
  predicate Balanced(m: Memory) {
    m.x1 == m.y1 && m.x2 == m.y2
  }

  /** A flat filter with balanced memory returns its input and keeps its memory balanced. */
  lemma FlatProcessIsIdentity(f: Filter, x: real)
    requires IsFlat(f.c) && Balanced(f.m)
    ensures Process(f, x).0 == x
    ensures Balanced(Process(f, x).1.m)
  {
  }

  /** A zero sample through silent memory gives zero and leaves the memory silent, whatever the coefficients. */
  lemma SilenceStaysSilent(f: Filter)
    requires f.m == Silence
    ensures Process(f, 0.0).0 == 0.0
    ensures Process(f, 0.0).1.m == Silence
  {
  }

  /** Filters a whole sequence, one sample after another: the reference for `ProcessBlock`. */
  function Run(f: Filter, xs: seq<real>): (r: (seq<real>, Filter))
    ensures |r.0| == |xs|
    ensures r.1.design == f.design && r.1.c == f.c
    decreases |xs|
  {
    if xs == [] then ([], f)
    else
      var (y, g) := Process(f, xs[0]);
      var (ys, h) := Run(g, xs[1..]);
      ([y] + ys, h)
  }

  /** A flat filter started from balanced (for instance silent) memory is the identity on every sequence. */
  lemma {:induction false} FlatRunIsIdentity(f: Filter, xs: seq<real>)
    requires IsFlat(f.c) && Balanced(f.m)
    ensures Run(f, xs).0 == xs
    ensures Balanced(Run(f, xs).1.m)
    decreases |xs|
  {
    if xs != [] {
      FlatProcessIsIdentity(f, xs[0]);
      FlatRunIsIdentity(Process(f, xs[0]).1, xs[1..]);
    }
  }

  /**
    Filters a block sample by sample in place, as the playback loop calls
    `process` once per sample in temporal order. The outputs and final state
    are those of `Run`, and a flat filter from balanced memory returns the block
    unchanged.
  */
  method ProcessBlock(f: Filter, xs: seq<real>) returns (ys: seq<real>, g: Filter)
    ensures (ys, g) == Run(f, xs)
    ensures IsFlat(f.c) && Balanced(f.m) ==> ys == xs && Balanced(g.m)
  {
    ys := [];
    g := f;
    var i := 0;
    assert xs[0..] == xs;
    while i < |xs|
      invariant 0 <= i <= |xs|
      invariant g.design == f.design && g.c == f.c
      invariant ys + Run(g, xs[i..]).0 == Run(f, xs).0
      invariant Run(g, xs[i..]).1 == Run(f, xs).1
      invariant IsFlat(f.c) && Balanced(f.m) ==> ys == xs[..i] && Balanced(g.m)
    {
      var (y, next) := Process(g, xs[i]);
      assert xs[i..][1..] == xs[i + 1..];
      assert Run(g, xs[i..]) == ([y] + Run(next, xs[i + 1..]).0, Run(next, xs[i + 1..]).1);
      if IsFlat(f.c) && Balanced(f.m) {
        FlatProcessIsIdentity(g, xs[i]);
      }
      ys := ys + [y];
      g := next;
      i := i + 1;
    }
    assert xs[i..] == [];
    assert Run(g, xs[i..]) == ([], g);
    assert ys + Run(g, xs[i..]).0 == ys;
  }
}

=== FILE: fft.dfy ===
/**
  The recursive radix-2 Cooley-Tukey transform with automatic zero padding,
  and its inverse by conjugation.

  The twiddle factor exp(-2*pi*i*k/n), which the source builds from `cos` and
  `sin`, is a parameter `w` applied as `w(k, n)`: every theorem below holds
  for any choice of it, so none of them depends on trigonometry.
*/
module FFT {
  import opened ComplexNumbers
  import opened PowersOfTwo

  /** w(k, n) stands for the twiddle factor of index k in a transform of length n. */
  type Twiddle = (nat, nat) -> Complex

  function Zeros(m: nat): (z: seq<Complex>)
    ensures |z| == m
    ensures forall i :: 0 <= i < m ==> z[i] == Zero
  {
    seq(m, _ => Zero)
  }

  /** Copy of x into an array of length m whose tail is filled with zeros. */
  function Pad(x: seq<Complex>, m: nat): (p: seq<Complex>)
    requires |x| <= m
    ensures |p| == m
    ensures forall i :: 0 <= i < |x| ==> p[i] == x[i]
    ensures forall i :: |x| <= i < m ==> p[i] == Zero
  {
    x + Zeros(m - |x|)
  }

  /** The even-indexed entries x[0], x[2], ... */
  function Evens(x: seq<Complex>): (e: seq<Complex>)
    requires |x| % 2 == 0
    ensures |e| == |x| / 2
    ensures forall k :: 0 <= k < |e| ==> e[k] == x[2 * k]
  {
    seq(|x| / 2, k requires 0 <= k < |x| / 2 => x[2 * k])
  }

  /** The odd-indexed entries x[1], x[3], ... */
  function Odds(x: seq<Complex>): (o: seq<Complex>)
    requires |x| % 2 == 0
    ensures |o| == |x| / 2
    ensures forall k :: 0 <= k < |o| ==> o[k] == x[2 * k + 1]
  {
    seq(|x| / 2, k requires 0 <= k < |x| / 2 => x[2 * k + 1])
  }

  /** Combines the transforms q of the even half and r of the odd half into a transform of length n. */
  function Butterfly(q: seq<Complex>, r: seq<Complex>, w: Twiddle, n: nat): (y: seq<Complex>)
    requires |q| == |r| && n == 2 * |q|
    ensures |y| == n
  {
    var h := |q|;
    seq(n, i requires 0 <= i < n =>
      if i < h then Add(q[i], Mul(w(i, n), r[i]))
      else Sub(q[i - h], Mul(w(i - h, n), r[i - h])))
  }

  /**
    The forward transform. A length that fails the power-of-two test is padded
    to `highestOneBit(n) << 1` and transformed again; the output is therefore as
    long as the smallest power of two that is at least the input, and as long
    as the input exactly when the input length is a power of two.
  */
  function Fft(x: seq<Complex>, w: Twiddle): (y: seq<Complex>)
    requires |x| >= 1
    ensures |y| == NextPow2(|x|)
    ensures |y| == |x| <==> IsPow2(|x|)
    decreases NextPow2(|x|), if IsPow2(|x|) then 0 else 1
  {
    var n := |x|;
    Pow2TestCorrect(n);
    if n == 1 then [x[0]]
    else if !PassesPow2Test(n) then
      PaddedLengthIsNextPow2(n);
      Fft(Pad(x, 2 * HighestOneBit(n)), w)
    else
      HalfOfPow2(n);
      Butterfly(Fft(Evens(x), w), Fft(Odds(x), w), w, n)
  }

  /**
    Lengths of the arrays one call of the transform on length n passes to its
    recursive calls, following the same branches as `Fft`.
  */
  function RecursiveCallLengths(n: nat): seq<nat> {
    if n == 1 then []
    else if !PassesPow2Test(n) then [2 * HighestOneBit(n)]
    else [n / 2, n / 2]
  }

  /**
    The empty array passes the power-of-two test and is split into two empty
    halves, so the transform calls itself on length 0 again and never returns.
    Every positive length, in contrast, recurses only on positive lengths that
    are smaller in the order the termination proof of `Fft` uses.
  */
  lemma EmptyInputRecursesForever(n: nat)
    ensures RecursiveCallLengths(0) == [0, 0]
    ensures n >= 1 ==>
      forall i :: 0 <= i < |RecursiveCallLengths(n)| ==>
        var m := RecursiveCallLengths(n)[i];
        m >= 1 &&
        (NextPow2(m) < NextPow2(n) || (NextPow2(m) == NextPow2(n) && IsPow2(m) && !IsPow2(n)))
  {
    if n > 1 {
      Pow2TestCorrect(n);
      if !IsPow2(n) {
        PaddedLengthIsNextPow2(n);
      } else {
        HalfOfPow2(n);
      }
    }
  }

  /** A one-element input is returned unchanged. */
  lemma FftSingleton(x: seq<Complex>, w: Twiddle)
    requires |x| == 1
    ensures Fft(x, w) == x
  {
  }

  /** A length that is not a power of two is transformed as its zero-padded copy. */
  lemma FftPadsToNextPow2(x: seq<Complex>, w: Twiddle)
    requires |x| >= 1 && !IsPow2(|x|)
    ensures Fft(x, w) == Fft(Pad(x, NextPow2(|x|)), w)
  {
    Pow2TestCorrect(|x|);
    PaddedLengthIsNextPow2(|x|);
  }

  /** On a power-of-two length of at least 2 the result is the butterfly of the transformed halves. */
  lemma FftButterflyEquations(x: seq<Complex>, w: Twiddle)
    requires |x| >= 2 && IsPow2(|x|)
    ensures |x| % 2 == 0
    ensures
      var n := |x|;
      var y := Fft(x, w);
      var q := Fft(Evens(x), w);
      var r := Fft(Odds(x), w);
      |y| == n && |q| == n / 2 && |r| == n / 2 &&
      forall k :: 0 <= k < n / 2 ==>
        y[k] == Add(q[k], Mul(w(k, n), r[k])) &&
        y[k + n / 2] == Sub(q[k], Mul(w(k, n), r[k]))
  {
    FftSplits(x, w);
    ButterflyHalves(Fft(Evens(x), w), Fft(Odds(x), w), w, |x|);
  }

  lemma FftSplits(x: seq<Complex>, w: Twiddle)
    requires |x| >= 2 && IsPow2(|x|)
    ensures |x| % 2 == 0 && |Evens(x)| == |Odds(x)| == |x| / 2
    ensures |Fft(Evens(x), w)| == |Fft(Odds(x), w)| == |x| / 2
    ensures Fft(x, w) == Butterfly(Fft(Evens(x), w), Fft(Odds(x), w), w, |x|)
  {
    Pow2TestCorrect(|x|);
    HalfOfPow2(|x|);
  }

  lemma ButterflyHalves(q: seq<Complex>, r: seq<Complex>, w: Twiddle, n: nat)
    requires |q| == |r| && n == 2 * |q|
    ensures forall k :: 0 <= k < n / 2 ==>
      Butterfly(q, r, w, n)[k] == Add(q[k], Mul(w(k, n), r[k])) &&
      Butterfly(q, r, w, n)[k + n / 2] == Sub(q[k], Mul(w(k, n), r[k]))
  {
    forall k | 0 <= k < n / 2
      ensures Butterfly(q, r, w, n)[k] == Add(q[k], Mul(w(k, n), r[k]))
      ensures Butterfly(q, r, w, n)[k + n / 2] == Sub(q[k], Mul(w(k, n), r[k]))
    {
      ButterflyAt(q, r, w, n, k);
      ButterflyAt(q, r, w, n, k + n / 2);
    }
  }

  lemma ButterflyAt(q: seq<Complex>, r: seq<Complex>, w: Twiddle, n: nat, i: nat)
    requires |q| == |r| && n == 2 * |q| && i < n
    ensures i < |q| ==> Butterfly(q, r, w, n)[i] == Add(q[i], Mul(w(i, n), r[i]))
    ensures i >= |q| ==> Butterfly(q, r, w, n)[i] == Sub(q[i - |q|], Mul(w(i - |q|, n), r[i - |q|]))
  {
  }

  // ---------------------------------------------------------------------------
  // Linearity and zero

  function AddAll(a: seq<Complex>, b: seq<Complex>): (s: seq<Complex>)
    requires |a| == |b|
    ensures |s| == |a|
    ensures forall i :: 0 <= i < |s| ==> s[i] == Add(a[i], b[i])
  {
    seq(|a|, i requires 0 <= i < |a| => Add(a[i], b[i]))
  }

  lemma PadAddAll(a: seq<Complex>, b: seq<Complex>, m: nat)
    requires |a| == |b| <= m
    ensures Pad(AddAll(a, b), m) == AddAll(Pad(a, m), Pad(b, m))
  {
  }

  lemma HalvesAddAll(a: seq<Complex>, b: seq<Complex>)
    requires |a| == |b| && |a| % 2 == 0
    ensures Evens(AddAll(a, b)) == AddAll(Evens(a), Evens(b))
    ensures Odds(AddAll(a, b)) == AddAll(Odds(a), Odds(b))
  {
  }

  lemma ButterflyLinear(q1: seq<Complex>, r1: seq<Complex>, q2: seq<Complex>, r2: seq<Complex>, w: Twiddle, n: nat)
    requires |q1| == |r1| == |q2| == |r2| && n == 2 * |q1|
    ensures Butterfly(AddAll(q1, q2), AddAll(r1, r2), w, n)
         == AddAll(Butterfly(q1, r1, w, n), Butterfly(q2, r2, w, n))
  {
    var h := |q1|;
    var lhs := Butterfly(AddAll(q1, q2), AddAll(r1, r2), w, n);
    var y1 := Butterfly(q1, r1, w, n);
    var y2 := Butterfly(q2, r2, w, n);
    forall i | 0 <= i < n
      ensures lhs[i] == Add(y1[i], y2[i])
    {
      if i < h {
        MulDistributes(w(i, n), r1[i], r2[i]);
        assert lhs[i] == Add(Add(q1[i], q2[i]), Mul(w(i, n), Add(r1[i], r2[i])));
        assert y1[i] == Add(q1[i], Mul(w(i, n), r1[i]));
        assert y2[i] == Add(q2[i], Mul(w(i, n), r2[i]));
      } else {
        var k := i - h;
        MulDistributes(w(k, n), r1[k], r2[k]);
        assert lhs[i] == Sub(Add(q1[k], q2[k]), Mul(w(k, n), Add(r1[k], r2[k])));
        assert y1[i] == Sub(q1[k], Mul(w(k, n), r1[k]));
        assert y2[i] == Sub(q2[k], Mul(w(k, n), r2[k]));
      }
    }
  }

  /** The transform is additive: fft(a + b) == fft(a) + fft(b) elementwise, for any twiddle factors. */
  lemma {:induction false} FftLinear(a: seq<Complex>, b: seq<Complex>, w: Twiddle)
    requires |a| == |b| >= 1
    ensures Fft(AddAll(a, b), w) == AddAll(Fft(a, w), Fft(b, w))
    decreases NextPow2(|a|), if IsPow2(|a|) then 0 else 1
  {
    var n := |a|;
    Pow2TestCorrect(n);
    if n == 1 {
    } else if !IsPow2(n) {
      var p := NextPow2(n);
      PaddedLengthIsNextPow2(n);
      PadAddAll(a, b, p);
      FftLinear(Pad(a, p), Pad(b, p), w);
    } else {
      HalfOfPow2(n);
      HalvesAddAll(a, b);
      FftLinear(Evens(a), Evens(b), w);
      FftLinear(Odds(a), Odds(b), w);
      ButterflyLinear(Fft(Evens(a), w), Fft(Odds(a), w), Fft(Evens(b), w), Fft(Odds(b), w), w, n);
    }
  }

  /** An all-zero input of any positive length transforms to an all-zero output. */
  lemma FftOfZeros(n: nat, w: Twiddle)
    requires n >= 1
    ensures Fft(Zeros(n), w) == Zeros(NextPow2(n))
  {
    var z := Zeros(n);
    assert AddAll(z, z) == z;
    FftLinear(z, z, w);
    var y := Fft(z, w);
    forall i | 0 <= i < |y|
      ensures y[i] == Zero
    {
      assert y[i] == Add(y[i], y[i]);
    }
  }

  // ---------------------------------------------------------------------------
  // Inverse transform

  function ConjAll(x: seq<Complex>): (c: seq<Complex>)
    ensures |c| == |x|
    ensures forall i :: 0 <= i < |x| ==> c[i] == Conj(x[i])
  {
    seq(|x|, i requires 0 <= i < |x| => Conj(x[i]))
  }

  /**
    The inverse transform: conjugate, transform, conjugate again and divide by
    the input length n. When n is not a power of two the forward result is
    longer than n; only its first n entries are kept.
  */
  function Ifft(x: seq<Complex>, w: Twiddle): (r: seq<Complex>)
    requires |x| >= 1
    ensures |r| == |x|
  {
    Unconjugate(Fft(ConjAll(x), w), |x|)
  }

  /** The last step of the inverse: the first n entries of y, conjugated and divided by n. */
  function Unconjugate(y: seq<Complex>, n: nat): (r: seq<Complex>)
    requires 1 <= n <= |y|
    ensures |r| == n
    ensures forall i :: 0 <= i < n ==> r[i] == Conj(DivReal(y[i], n as real))
  {
    seq(n, i requires 0 <= i < n => Conj(DivReal(y[i], n as real)))
  }

  lemma UnconjugateLinear(a: seq<Complex>, b: seq<Complex>, n: nat)
    requires |a| == |b| && 1 <= n <= |a|
    ensures Unconjugate(AddAll(a, b), n) == AddAll(Unconjugate(a, n), Unconjugate(b, n))
  {
    var d := n as real;
    forall i | 0 <= i < n
      ensures Conj(DivReal(Add(a[i], b[i]), d)) == Add(Conj(DivReal(a[i], d)), Conj(DivReal(b[i], d)))
    {
      DivAdd(a[i].re, b[i].re, d);
      DivAdd(a[i].im, b[i].im, d);
    }
  }

  lemma DivAdd(x: real, y: real, d: real)
    requires d != 0.0
    ensures (x + y) / d == x / d + y / d
  {
  }

  lemma ConjAllLinear(a: seq<Complex>, b: seq<Complex>)
    requires |a| == |b|
    ensures ConjAll(AddAll(a, b)) == AddAll(ConjAll(a), ConjAll(b))
  {
  }

  /** The inverse transform is additive as well. */
  lemma IfftLinear(a: seq<Complex>, b: seq<Complex>, w: Twiddle)
    requires |a| == |b| >= 1
    ensures Ifft(AddAll(a, b), w) == AddAll(Ifft(a, w), Ifft(b, w))
  {
    ConjAllLinear(a, b);
    FftLinear(ConjAll(a), ConjAll(b), w);
    UnconjugateLinear(Fft(ConjAll(a), w), Fft(ConjAll(b), w), |a|);
  }

  /** Every entry of `short` is the matching entry of `full` multiplied by k. */
  predicate ScaledBy(short: seq<Complex>, full: seq<Complex>, k: real) {
    |short| <= |full| &&
    forall i :: 0 <= i < |short| ==> short[i].re == full[i].re * k && short[i].im == full[i].im * k
  }

  /**
    On a length n that is not a power of two the inverse transform of x agrees,
    in its first n entries, with the inverse transform of x padded to the next
    power of two P, except that it is scaled by P / n: it divides by n although
    the forward transform inside it ran on length P.
  */
  lemma IfftScalesByInputLength(x: seq<Complex>, w: Twiddle)
    requires |x| >= 1 && !IsPow2(|x|)
    ensures |x| < NextPow2(|x|)
    ensures ScaledBy(Ifft(x, w), Ifft(Pad(x, NextPow2(|x|)), w), NextPow2(|x|) as real / |x| as real)
  {
    IfftOfPadded(x, w);
    ScaleChange(Fft(ConjAll(x), w), |x|, NextPow2(|x|));
  }

  /** Both inverses divide the same forward transform: by n for x itself, by P for its padded copy. */
  lemma IfftOfPadded(x: seq<Complex>, w: Twiddle)
    requires |x| >= 1 && !IsPow2(|x|)
    ensures |x| < NextPow2(|x|) <= |Fft(ConjAll(x), w)|
    ensures Ifft(x, w) == Unconjugate(Fft(ConjAll(x), w), |x|)
    ensures Ifft(Pad(x, NextPow2(|x|)), w) == Unconjugate(Fft(ConjAll(x), w), NextPow2(|x|))
  {
    var p := NextPow2(|x|);
    ConjAllPad(x, p);
    FftPadsToNextPow2(ConjAll(x), w);
  }

  lemma ConjAllPad(x: seq<Complex>, m: nat)
    requires |x| <= m
    ensures ConjAll(Pad(x, m)) == Pad(ConjAll(x), m)
  {
  }

  lemma ScaleChange(y: seq<Complex>, n: nat, p: nat)
    requires 1 <= n <= p <= |y|
    ensures ScaledBy(Unconjugate(y, n), Unconjugate(y, p), p as real / n as real)
  {
    var short, full, k := Unconjugate(y, n), Unconjugate(y, p), p as real / n as real;
    forall i | 0 <= i < n
      ensures short[i].re == full[i].re * k && short[i].im == full[i].im * k
    {
      ScaleEntry(y[i], n as real, p as real);
    }
  }

  lemma ScaleEntry(v: Complex, n: real, p: real)
    requires n > 0.0 && p > 0.0
    ensures Conj(DivReal(v, n)).re == Conj(DivReal(v, p)).re * (p / n)
    ensures Conj(DivReal(v, n)).im == Conj(DivReal(v, p)).im * (p / n)
  {
    Rescale(v.re, n, p);
    Rescale(v.im, n, p);
  }

  lemma Rescale(v: real, n: real, p: real)
    requires n > 0.0 && p > 0.0
    ensures v / n == (v / p) * (p / n)
  {
  }

  /** The inverse of a one-element transform is the input. */
  lemma RoundTripLengthOne(x: seq<Complex>, w: Twiddle)
    requires |x| == 1
    ensures Ifft(Fft(x, w), w) == x
  {
  }

  /** With w(0, 2) == 1, a two-element input [a, b] transforms to [a + b, a - b]. */
  lemma FftOfTwo(x: seq<Complex>, w: Twiddle)
    requires |x| == 2 && w(0, 2) == One
    ensures Fft(x, w) == [Add(x[0], x[1]), Sub(x[0], x[1])]
  {
    assert IsPow2(2);
    FftButterflyEquations(x, w);
    assert Evens(x) == [x[0]] && Odds(x) == [x[1]];
    MulLaws(x[1], One);
  }

  /** With w(0, 2) == 1, the inverse of [p, q] is [(p + q) / 2, (p - q) / 2], computed through conjugation. */
  lemma IfftOfTwo(y: seq<Complex>, w: Twiddle)
    requires |y| == 2 && w(0, 2) == One
    ensures Ifft(y, w) == [Conj(DivReal(Add(Conj(y[0]), Conj(y[1])), 2.0)),
                           Conj(DivReal(Sub(Conj(y[0]), Conj(y[1])), 2.0))]
  {
    var c := ConjAll(y);
    FftOfTwo(c, w);
  }

  /** With the exact twiddle w(0, 2) == 1, a two-element transform is inverted exactly. */
  lemma RoundTripLengthTwo(x: seq<Complex>, w: Twiddle)
    requires |x| == 2 && w(0, 2) == One
    ensures Ifft(Fft(x, w), w) == x
  {
    FftOfTwo(x, w);
    IfftOfTwo(Fft(x, w), w);
    HalvedSumAndDifference(x[0], x[1]);
  }

  /** Halving the sum and the difference of conj(a + b) and conj(a - b) and conjugating recovers a and b. */
  lemma HalvedSumAndDifference(a: Complex, b: Complex)
    ensures Conj(DivReal(Add(Conj(Add(a, b)), Conj(Sub(a, b))), 2.0)) == a
    ensures Conj(DivReal(Sub(Conj(Add(a, b)), Conj(Sub(a, b))), 2.0)) == b
  {
  }
}

=== FILE: gain.dfy ===
/**
  Gain control of the ten-band equaliser: the slider-to-dB mapping, the
  once-per-block smoothing of `currentDb` toward `targetDb`, and how the
  filter banks are rebuilt on a seek.

  `Math.pow(10, dB / 40)` is the parameter `amp`. Besides `amp(0.0) == 1.0`,
  which some lemmas use, the smoothing and seek lemmas require every band to be
  admissible at every gain (`AdmissibleAtAllGains`: `amp(db) > 0` and
  `amp(db) + alpha != 0` for all `db`). The real `10^(dB / 40)` meets this only
  for bands with `alpha >= 0`; for a band with `alpha < 0` there is one gain
  where `A + alpha == 0`, and `amp` then stands for `10^(dB / 40)` only on the
  gains actually applied.
*/
module GainControl {
  import opened EqualizerFilter

  const Bands: nat := 10

  /** A band moves only while its gap exceeds this many dB. */
  const Threshold: real := 0.01

  /** Fraction of the gap a moving band closes per processed block. */
  const Smoothing: real := 0.2

  /** Linear amplitude 10^(dB / 40) of a gain in dB. */
  type Amplitude = real -> real

  /**
    The gain state shared with the controls and the two filter banks. Only
    `left` is used for mono input; `right` is updated and run only for stereo.
  */
  datatype EqState = EqState(
    targetDb: seq<real>,
    currentDb: seq<real>,
    left: seq<Filter>,
    right: seq<Filter>,
    channels: int)

  function Abs(x: real): real {
    if x < 0.0 then -x else x
  }

  predicate Valid(s: EqState) {
    && |s.targetDb| == Bands && |s.currentDb| == Bands
    && |s.left| == Bands && |s.right| == Bands
    && forall i :: 0 <= i < Bands ==> s.left[i].design == s.right[i].design
  }

  /**
    Every gain the amplitude map yields is usable with design d. With the real
    `10^(dB / 40)` this fails for a design with `alpha < 0` (see the module comment).
  */
  ghost predicate AdmissibleAtAllGains(d: Design, amp: Amplitude) {
    forall db: real :: Admissible(d, amp(db))
  }

  ghost predicate BanksAdmissible(s: EqState, amp: Amplitude) {
    Valid(s) && forall i :: 0 <= i < Bands ==> AdmissibleAtAllGains(s.left[i].design, amp)
  }

  /**
    The invariant the filter banks are meant to keep: each band's filter
    holds the coefficients of the gain recorded in `currentDb` (the right bank
    only when stereo, since only then is it updated).
  */
  ghost predicate GainsApplied(s: EqState, amp: Amplitude) {
    && BanksAdmissible(s, amp)
    && forall i :: 0 <= i < Bands ==>
      && s.left[i].c == GainCoeffs(s.left[i].design, amp, s.currentDb[i])
      && (s.channels == 2 ==> s.right[i].c == GainCoeffs(s.right[i].design, amp, s.currentDb[i]))
  }

  /** The coefficients `updateGain(db)` computes for a band of design d. */
  function GainCoeffs(d: Design, amp: Amplitude, db: real): Coeffs
    requires AdmissibleAtAllGains(d, amp)
  {
    assert Admissible(d, amp(db));
    PeakingCoeffs(d, amp(db))
  }

  // ---------------------------------------------------------------------------
  // Slider mapping

  /** Slider position to dB: the slider's range lands in [-24, 24] dB and its middle at 0 dB. */
  function SliderToDb(value: int): (db: real)
    ensures 0 <= value <= 100 ==> -24.0 <= db <= 24.0
    ensures value == 50 ==> db == 0.0
  {
    (value - 50) as real * (24.0 / 50.0)
  }

  /** The slider range [0, 100] maps linearly and increasingly onto [-24, 24] dB, with 50 at 0 dB. */
  lemma SliderMapping(v: int, u: int)
    ensures 0 <= v <= 100 <==> -24.0 <= SliderToDb(v) <= 24.0
    ensures SliderToDb(0) == -24.0 && SliderToDb(50) == 0.0 && SliderToDb(100) == 24.0
    ensures v < u ==> SliderToDb(v) < SliderToDb(u)
    ensures SliderToDb(u) - SliderToDb(v) == (u - v) as real * 0.48
  {
  }

  /** A slider move records a new target for a band in range; any other index is ignored. */
  function SetBandGain(s: EqState, index: int, sliderValue: int): (r: EqState)
    ensures !(0 <= index < |s.targetDb|) ==> r == s
    ensures 0 <= index < |s.targetDb| ==>
      && |r.targetDb| == |s.targetDb|
      && r.targetDb[index] == SliderToDb(sliderValue)
      && (forall j :: 0 <= j < |s.targetDb| && j != index ==> r.targetDb[j] == s.targetDb[j])
      && r == s.(targetDb := r.targetDb)
  {
    if 0 <= index < |s.targetDb| then s.(targetDb := s.targetDb[index := SliderToDb(sliderValue)])
    else s
  }

  // ---------------------------------------------------------------------------
  // Smoothing

  predicate Moves(target: real, current: real) {
    Abs(target - current) > Threshold
  }

  /** One smoothing step of one band. */
  function SmoothBand(target: real, current: real): (c: real)
    ensures Moves(target, current) ==> target - c == 0.8 * (target - current)
    ensures !Moves(target, current) ==> c == current
    ensures Abs(target - c) <= Abs(target - current)
    ensures current <= target ==> current <= c <= target
    ensures target <= current ==> target <= c <= current
  {
    if Moves(target, current) then current + (target - current) * Smoothing else current
  }

  /**
    `updateFiltersSmoothly`: every band whose gap exceeds the threshold moves a
    fifth of the way toward its target and pushes the new gain into its left
    filter, and into its right filter when stereo; every other band and filter
    is left alone.
  */
  function UpdateFiltersSmoothly(s: EqState, amp: Amplitude): (r: EqState)
    requires BanksAdmissible(s, amp)
    ensures BanksAdmissible(r, amp)
    ensures r.targetDb == s.targetDb && r.channels == s.channels
    ensures forall i :: 0 <= i < Bands ==>
      r.currentDb[i] == SmoothBand(s.targetDb[i], s.currentDb[i])
    ensures forall i :: 0 <= i < Bands && Moves(s.targetDb[i], s.currentDb[i]) ==>
      && r.left[i] == UpdateGain(s.left[i], amp(r.currentDb[i]))
      && r.right[i] == (if s.channels == 2 then UpdateGain(s.right[i], amp(r.currentDb[i])) else s.right[i])
    ensures forall i :: 0 <= i < Bands && !Moves(s.targetDb[i], s.currentDb[i]) ==>
      r.currentDb[i] == s.currentDb[i] && r.left[i] == s.left[i] && r.right[i] == s.right[i]
  {
    var current := seq(Bands, i requires 0 <= i < Bands => SmoothBand(s.targetDb[i], s.currentDb[i]));
    var left := seq(Bands, i requires 0 <= i < Bands =>
      if Moves(s.targetDb[i], s.currentDb[i]) then UpdateGain(s.left[i], amp(current[i])) else s.left[i]);
    var right := seq(Bands, i requires 0 <= i < Bands =>
      if Moves(s.targetDb[i], s.currentDb[i]) && s.channels == 2
      then UpdateGain(s.right[i], amp(current[i])) else s.right[i]);
    s.(currentDb := current, left := left, right := right)
  }

  /** Smoothing keeps every filter holding the coefficients of its band's current gain. */
  lemma SmoothingKeepsGainsApplied(s: EqState, amp: Amplitude)
    requires GainsApplied(s, amp)
    ensures GainsApplied(UpdateFiltersSmoothly(s, amp), amp)
  {
  }

  /** The state after n processed blocks with no control input in between. */
  function SmoothTimes(s: EqState, amp: Amplitude, n: nat): (r: EqState)
    requires BanksAdmissible(s, amp)
    ensures BanksAdmissible(r, amp)
    ensures r.targetDb == s.targetDb && r.channels == s.channels
    decreases n
  {
    if n == 0 then s else SmoothTimes(UpdateFiltersSmoothly(s, amp), amp, n - 1)
  }

  /** One band's gain after n smoothing steps toward a fixed target. */
  function SmoothBandTimes(target: real, current: real, n: nat): real
    decreases n
  {
    if n == 0 then current else SmoothBandTimes(target, SmoothBand(target, current), n - 1)
  }

  function Pow(x: real, n: nat): real
    decreases n
  {
    if n == 0 then 1.0 else x * Pow(x, n - 1)
  }

  function Max(a: real, b: real): real {
    if a < b then b else a
  }

  lemma {:induction false} PowNonNegative(x: real, n: nat)
    requires 0.0 <= x <= 1.0
    ensures 0.0 <= Pow(x, n) <= 1.0
    decreases n
  {
    if n > 0 {
      PowNonNegative(x, n - 1);
      var p := Pow(x, n - 1);
      assert Pow(x, n) == x * p;
      assert x * p <= 1.0 * p by {
        assert (1.0 - x) * p >= 0.0;
      }
    }
  }

  /** The bound on a band's gap after n blocks from an initial gap g. */
  function GapBound(n: nat, g: real): real {
    Max(Threshold, Pow(0.8, n) * g)
  }

  /**
    With a fixed target the gap never grows, and after n blocks it is at most
    the threshold or 0.8^n times the initial gap: the gain converges
    geometrically and never overshoots.
  */
  lemma {:induction false} SmoothingConverges(target: real, current: real, n: nat)
    ensures Abs(target - SmoothBandTimes(target, current, n)) <= Abs(target - current)
    ensures Abs(target - SmoothBandTimes(target, current, n)) <= GapBound(n, Abs(target - current))
    decreases n
  {
    if n > 0 {
      var c1 := SmoothBand(target, current);
      SmoothingConverges(target, c1, n - 1);
      var g := Abs(target - current);
      var g1 := Abs(target - c1);
      assert SmoothBandTimes(target, current, n) == SmoothBandTimes(target, c1, n - 1);
      if Moves(target, current) {
        GeometricStep(n, g, g1);
      } else {
        StoppedStep(n, g);
      }
    }
  }

  lemma GeometricStep(n: nat, g: real, g1: real)
    requires n >= 1 && g >= 0.0 && g1 == 0.8 * g
    ensures GapBound(n - 1, g1) == GapBound(n, g)
  {
    var p := Pow(0.8, n - 1);
    assert Pow(0.8, n) == 0.8 * p;
    assert p * g1 == (0.8 * p) * g;
  }

  lemma StoppedStep(n: nat, g: real)
    requires n >= 1 && 0.0 <= g <= Threshold
    ensures GapBound(n - 1, g) == Threshold && GapBound(n, g) == Threshold
  {
    PowNonNegative(0.8, n - 1);
    PowNonNegative(0.8, n);
    var p := Pow(0.8, n - 1);
    var q := Pow(0.8, n);
    assert p * g <= g by {
      assert (1.0 - p) * g >= 0.0;
    }
    assert q * g <= g by {
      assert (1.0 - q) * g >= 0.0;
    }
  }

  /** In the state, band i's gain after n blocks is the band-level iteration of its own gain. */
  lemma {:induction false} SmoothTimesBand(s: EqState, amp: Amplitude, n: nat, i: nat)
    requires BanksAdmissible(s, amp) && i < Bands
    ensures SmoothTimes(s, amp, n).currentDb[i] == SmoothBandTimes(s.targetDb[i], s.currentDb[i], n)
    decreases n
  {
    if n > 0 {
      SmoothTimesBand(UpdateFiltersSmoothly(s, amp), amp, n - 1, i);
    }
  }

  // ---------------------------------------------------------------------------
  // Filter construction and seeking

  function DesignsOf(s: EqState): (ds: seq<Design>)
    requires Valid(s)
    ensures |ds| == Bands
    ensures forall i :: 0 <= i < Bands ==> ds[i] == s.left[i].design
  {
    seq(Bands, i requires 0 <= i < Bands => s.left[i].design)
  }

  /** `initFilters`: both banks rebuilt with flat coefficients and silent memory. */
  function InitFilters(s: EqState, designs: seq<Design>, channels: int): (r: EqState)
    requires |designs| == Bands && forall i :: 0 <= i < Bands ==> Admissible(designs[i], 1.0)
    ensures r.targetDb == s.targetDb && r.currentDb == s.currentDb && r.channels == channels
    ensures |r.left| == Bands && |r.right| == Bands
    ensures forall i :: 0 <= i < Bands ==>
      && r.left[i] == NewFilter(designs[i]) && r.right[i] == NewFilter(designs[i])
      && IsFlat(r.left[i].c) && IsFlat(r.right[i].c)
      && r.left[i].m == Silence && r.right[i].m == Silence
  {
    var bank := seq(Bands, i requires 0 <= i < Bands => NewFilter(designs[i]));
    s.(left := bank, right := bank, channels := channels)
  }

  /**
    The state when playback starts: every target and current gain at 0 dB,
    and every filter of both banks flat with silent memory.
  */
  function Initial(designs: seq<Design>, channels: int): (r: EqState)
    requires |designs| == Bands && forall i :: 0 <= i < Bands ==> Admissible(designs[i], 1.0)
    ensures Valid(r) && r.channels == channels
    ensures forall i :: 0 <= i < Bands ==>
      && r.targetDb[i] == 0.0 && r.currentDb[i] == 0.0
      && r.left[i].design == designs[i] && r.right[i].design == designs[i]
      && IsFlat(r.left[i].c) && IsFlat(r.right[i].c)
      && r.left[i].m == Silence && r.right[i].m == Silence
  {
    var zeros := seq(Bands, _ => 0.0);
    InitFilters(EqState(zeros, zeros, [], [], channels), designs, channels)
  }

  /** At start every filter is flat, which is the gain 0 dB that `currentDb` records. */
  lemma InitialGainsApplied(designs: seq<Design>, channels: int, amp: Amplitude)
    requires |designs| == Bands && amp(0.0) == 1.0
    requires forall i :: 0 <= i < Bands ==> Admissible(designs[i], 1.0)
    requires forall i :: 0 <= i < Bands ==> AdmissibleAtAllGains(designs[i], amp)
    ensures GainsApplied(Initial(designs, channels), amp)
  {
    forall i | 0 <= i < Bands
      ensures Admissible(designs[i], 1.0)
    {
      assert Admissible(designs[i], amp(0.0));
    }
  }

  /**
    A seek as the source performs it: `initFilters` rebuilds both banks at
    0 dB while `currentDb` keeps its values.
  */
  function SeekAsWritten(s: EqState, amp: Amplitude): (r: EqState)
    requires BanksAdmissible(s, amp) && amp(0.0) == 1.0
    ensures BanksAdmissible(r, amp)
    ensures r.targetDb == s.targetDb && r.currentDb == s.currentDb && r.channels == s.channels
    ensures forall i :: 0 <= i < Bands ==>
      && IsFlat(r.left[i].c) && IsFlat(r.right[i].c)
      && r.left[i].m == Silence && r.right[i].m == Silence
      && r.left[i].design == s.left[i].design && r.right[i].design == s.right[i].design
  {
    var ds := DesignsOf(s);
    assert forall i :: 0 <= i < Bands ==> Admissible(ds[i], amp(0.0));
    InitFilters(s, ds, s.channels)
  }

  /**
    After a seek, a band that had already converged to a gain other than 0 dB
    keeps flat coefficients in both banks for good: its gap is within the threshold, so
    smoothing never pushes its gain again, and the filters no longer hold the
    gain `currentDb` records.
  */
  lemma SeekAsWrittenLosesConvergedGain(s: EqState, amp: Amplitude, i: nat, n: nat)
    requires GainsApplied(s, amp) && amp(0.0) == 1.0 && i < Bands
    requires !Moves(s.targetDb[i], s.currentDb[i])
    requires amp(s.currentDb[i]) != 1.0 && s.left[i].design.alpha != 0.0
    ensures var r := SmoothTimes(SeekAsWritten(s, amp), amp, n);
      && IsFlat(r.left[i].c) && IsFlat(r.right[i].c)
      && r.currentDb[i] == s.currentDb[i] && !GainsApplied(r, amp)
  {
    var r0 := SeekAsWritten(s, amp);
    StillFlat(r0, amp, i, n);
    var r := SmoothTimes(r0, amp, n);
    FlatExactlyAtUnitGain(r.left[i].design, amp(r.currentDb[i]));
  }

  lemma {:induction false} StillFlat(s: EqState, amp: Amplitude, i: nat, n: nat)
    requires BanksAdmissible(s, amp) && i < Bands
    requires !Moves(s.targetDb[i], s.currentDb[i]) && IsFlat(s.left[i].c)
    ensures var r := SmoothTimes(s, amp, n);
      && IsFlat(r.left[i].c) && r.currentDb[i] == s.currentDb[i] && r.left[i].design == s.left[i].design
      && (IsFlat(s.right[i].c) ==> IsFlat(r.right[i].c))
    decreases n
  {
    if n > 0 {
      StillFlat(UpdateFiltersSmoothly(s, amp), amp, i, n - 1);
    }
  }

  /**
    The seek the rest of the code relies on: it clears the memory of every
    filter and keeps its coefficients at the gain `currentDb` records. The
    sliders and `targetDb` still hold the gain after a seek, and smoothing
    pushes a gain only while the gap exceeds 0.01, so it assumes the filters
    already hold `currentDb`.
  */
  function SeekResettingMemory(s: EqState): (r: EqState)
    requires Valid(s)
    ensures Valid(r)
    ensures r.targetDb == s.targetDb && r.currentDb == s.currentDb && r.channels == s.channels
    ensures forall i :: 0 <= i < Bands ==>
      && r.left[i].m == Silence && r.right[i].m == Silence
      && r.left[i].c == s.left[i].c && r.right[i].c == s.right[i].c
      && r.left[i].design == s.left[i].design && r.right[i].design == s.right[i].design
  {
    var left := seq(Bands, i requires 0 <= i < Bands => s.left[i].(m := Silence));
    var right := seq(Bands, i requires 0 <= i < Bands => s.right[i].(m := Silence));
    s.(left := left, right := right)
  }

  /** With the corrected seek the filters hold the recorded gains after any seek and any number of blocks. */
  lemma SeekResettingMemoryKeepsGains(s: EqState, amp: Amplitude, n: nat)
    requires GainsApplied(s, amp)
    ensures GainsApplied(SmoothTimes(SeekResettingMemory(s), amp, n), amp)
  {
    var r := SeekResettingMemory(s);
    assert GainsApplied(r, amp);
    SmoothTimesKeepsGains(r, amp, n);
  }

  lemma {:induction false} SmoothTimesKeepsGains(s: EqState, amp: Amplitude, n: nat)
    requires GainsApplied(s, amp)
    ensures GainsApplied(SmoothTimes(s, amp, n), amp)
    decreases n
  {
    if n > 0 {
      SmoothingKeepsGainsApplied(s, amp);
      SmoothTimesKeepsGains(UpdateFiltersSmoothly(s, amp), amp, n - 1);
    }
  }
}

=== FILE: pcm.dfy ===
/**
  The PCM byte codec of the playback loop: interleaved 16-bit signed
  little-endian frames to per-channel samples in [-1, 1) and back.

  Java's `byte`, `short` and `int` conversions are written out: `& 0xFF` is
  Euclidean remainder by 256, `>> 8` is floor division by 256, and the
  `(short)` and `(byte)` casts keep the low 16 and 8 bits as signed values.
*/
module PcmCodec {

  /** A Java byte: a signed 8-bit integer. */
  type byte = b: int | -128 <= b < 128

  /** Samples per channel array; the byte buffer read per cycle holds 2 * BufferSize bytes. */
  const BufferSize: nat := 4096
  const BytesPerSample: nat := 2

  function FrameSize(channels: nat): nat {
    BytesPerSample * channels
  }

  /** `(short) v`: the low 16 bits of v as a signed value. */
  function ToShort(v: int): (s: int)
    ensures -32768 <= s <= 32767
    ensures (s - v) % 65536 == 0
    ensures -32768 <= v <= 32767 ==> s == v
  {
    (v + 32768) % 65536 - 32768
  }

  /** `(byte) u` for an unsigned 8-bit value u. */
  function ToByte(u: int): (b: byte)
    requires 0 <= u < 256
    ensures (b - u) % 256 == 0
  {
    if u >= 128 then u - 256 else u
  }

  /** `b & 0xFF`: the unsigned value of a byte. */
  function Unsigned(b: byte): (u: int)
    ensures 0 <= u < 256
    ensures b >= 0 ==> u == b
    ensures b < 0 ==> u == b + 256
  {
    b % 256
  }

  /**
    The sample stored little-endian in bytes lo, hi, read as
    `(short) ((lo & 0xFF) | (hi << 8))`. `hi << 8` is hi * 256, whose low eight
    bits are zero, so the OR with a value below 256 is a sum.
  */
  function UnpackSample(lo: byte, hi: byte): (v: int)
    ensures -32768 <= v <= 32767
  {
    ToShort(hi * 256 + Unsigned(lo))
  }

  /** `(byte) (v & 0xFF)`: its unsigned value is v's lowest eight bits. */
  function LowByte(v: int): (b: byte)
    ensures Unsigned(b) == v % 256
  {
    ToByte(v % 256)
  }

  /**
    `(byte) ((v >> 8) & 0xFF)`: for a 16-bit value it is the signed high
    byte, so that v == 256 * hi + unsigned lo.
  */
  function HighByte(v: int): (b: byte)
    ensures -32768 <= v <= 32767 ==> v == 256 * b + v % 256
  {
    ToByte((v / 256) % 256)
  }

  /** Packing a 16-bit value into two bytes and unpacking them gives the value back. */
  lemma PackThenUnpack(v: int)
    requires -32768 <= v <= 32767
    ensures UnpackSample(LowByte(v), HighByte(v)) == v
  {
    var q := v / 256;
    var r := v % 256;
    assert v == q * 256 + r;
    assert -128 <= q < 128;
    assert HighByte(v) == q;
    assert Unsigned(LowByte(v)) == r;
  }

  /** Unpacking two bytes and packing the value gives the bytes back: the 16-bit layout is a bijection. */
  lemma UnpackThenPack(lo: byte, hi: byte)
    ensures LowByte(UnpackSample(lo, hi)) == lo
    ensures HighByte(UnpackSample(lo, hi)) == hi
  {
    var u := Unsigned(lo);
    var v := hi * 256 + u;
    assert UnpackSample(lo, hi) == v;
    assert v / 256 == hi && v % 256 == u;
  }

  /** `(int) r` for a double r: truncation toward zero. */
  function TruncToInt(r: real): (i: int)
    ensures r >= 0.0 ==> 0 <= i && i as real <= r < i as real + 1.0
    ensures r < 0.0 ==> i <= 0 && i as real - 1.0 < r <= i as real
  {
    if r >= 0.0 then r.Floor else -((-r).Floor)
  }

  /** Saturation to the 16-bit range, as `encodeDoublesToBytes` applies it. */
  function Clamp16(v: int): (c: int)
    ensures -32768 <= c <= 32767
    ensures -32768 <= v <= 32767 ==> c == v
    ensures v > 32767 ==> c == 32767
    ensures v < -32768 ==> c == -32768
  {
    if v > 32767 then 32767 else if v < -32768 then -32768 else v
  }

  /** The 16-bit value stored for sample s: s * 32767 truncated, then saturated. */
  function Quantize(s: real): (v: int)
    ensures -32768 <= v <= 32767
    ensures s >= 1.0 ==> v == 32767
    ensures s <= -1.0 ==> v == -32767 || v == -32768
  {
    Clamp16(TruncToInt(s * 32767.0))
  }

  /** The sample a 16-bit value decodes to: it lies in [-1, 1) and times 32768 gives the value back. */
  function Decoded(v: int): (d: real)
    ensures -32768 <= v <= 32767 ==> -1.0 <= d < 1.0
    ensures d * 32768.0 == v as real
  {
    v as real / 32768.0
  }

  /** Inside [-1, 1] quantisation loses less than one step of 1/32767. */
  lemma QuantizeError(s: real)
    requires -1.0 <= s <= 1.0
    ensures -1.0 < Quantize(s) as real - s * 32767.0 < 1.0
  {
  }

  /**
    Decoding divides by 32768 but encoding multiplies by 32767, so a value
    passed through both, unprocessed, comes back one step closer to zero.
  */
  lemma DecodeThenEncode(v: int)
    requires -32768 <= v <= 32767
    ensures Quantize(Decoded(v)) == if v > 0 then v - 1 else if v < 0 then v + 1 else 0
  {
    var x := Decoded(v) * 32767.0;
    assert x == v as real - v as real / 32768.0;
  }

  /** The bytes of one encoded frame: left sample, right sample when stereo, zeros for other channels. */
  function FrameBytes(l: real, r: real, channels: nat): (fb: seq<byte>)
    requires channels >= 1
    ensures |fb| == FrameSize(channels)
    ensures fb[0] == LowByte(Quantize(l)) && fb[1] == HighByte(Quantize(l))
    ensures channels == 2 ==> fb[2] == LowByte(Quantize(r)) && fb[3] == HighByte(Quantize(r))
    ensures forall t :: (if channels == 2 then 4 else 2) <= t < |fb| ==> fb[t] == 0
  {
    var vl := Quantize(l);
    var vr := Quantize(r);
    var used := if channels == 2 then [LowByte(vl), HighByte(vl), LowByte(vr), HighByte(vr)]
                else [LowByte(vl), HighByte(vl)];
    used + seq(FrameSize(channels) - |used|, _ => 0)
  }

  /** A frame encoded and decoded again yields the quantised samples of every channel it carries. */
  lemma FrameRoundTrip(l: real, r: real, channels: nat)
    requires channels >= 1
    ensures var fb := FrameBytes(l, r, channels);
      Decoded(UnpackSample(fb[0], fb[1])) == Decoded(Quantize(l)) &&
      (channels == 2 ==> Decoded(UnpackSample(fb[2], fb[3])) == Decoded(Quantize(r)))
  {
    PackThenUnpack(Quantize(l));
    PackThenUnpack(Quantize(r));
  }

  lemma MulMonotone(a: nat, b: nat, c: nat)
    requires a <= b
    ensures a * c <= b * c
  {
    assert b * c - a * c == (b - a) * c;
  }

  lemma FrameWithin(i: nat, frames: nat, fs: nat)
    requires i < frames
    ensures i * fs + fs <= frames * fs
  {
    assert i * fs + fs == (i + 1) * fs;
    MulMonotone(i + 1, frames, fs);
  }

  /** The sample stored little-endian at bytes k and k + 1. */
  function SampleAt(buffer: seq<byte>, k: nat): real
    requires k + 1 < |buffer|
  {
    Decoded(UnpackSample(buffer[k], buffer[k + 1]))
  }

  /** bytesRead / frameSize whole frames fit in the bytes read, and less than one more would. */
  lemma WholeFrames(bytesRead: nat, fs: nat)
    requires fs >= 1
    ensures var frames := bytesRead / fs;
      && frames * fs <= bytesRead < frames * fs + fs
      && forall i :: 0 <= i < frames ==> i * fs + fs <= bytesRead
  {
    var frames := bytesRead / fs;
    assert bytesRead == frames * fs + bytesRead % fs;
    forall i | 0 <= i < frames
      ensures i * fs + fs <= bytesRead
    {
      FrameWithin(i, frames, fs);
    }
  }

  /**
    Decodes the whole frames among the first bytesRead bytes into the sample
    arrays; entries past the last frame, and the right array unless the source
    is stereo, keep their previous contents. Every byte read lies below
    frames * frameSize <= bytesRead.
  */
  method DecodeBytesToDoubles(buffer: seq<byte>, left: seq<real>, right: seq<real>, bytesRead: int, channels: nat)
    returns (frames: nat, left': seq<real>, right': seq<real>)
    requires channels >= 1
    requires 0 <= bytesRead <= |buffer|
    requires bytesRead / FrameSize(channels) <= |left|
    requires channels == 2 ==> bytesRead / FrameSize(channels) <= |right|
    ensures frames == bytesRead / FrameSize(channels)
    ensures frames * FrameSize(channels) <= bytesRead < frames * FrameSize(channels) + FrameSize(channels)
    ensures forall i :: 0 <= i < frames ==> i * FrameSize(channels) + FrameSize(channels) <= bytesRead
    ensures |left'| == |left| && |right'| == |right|
    ensures forall i :: 0 <= i < frames ==> left'[i] == SampleAt(buffer, i * FrameSize(channels))
    ensures forall i :: frames <= i < |left| ==> left'[i] == left[i]
    ensures channels == 2 ==> forall i :: 0 <= i < frames ==>
      right'[i] == SampleAt(buffer, i * FrameSize(channels) + 2)
    ensures channels == 2 ==> forall i :: frames <= i < |right| ==> right'[i] == right[i]
    ensures channels != 2 ==> right' == right
  {
    var fs := FrameSize(channels);
    frames := bytesRead / fs;
    WholeFrames(bytesRead, fs);
    left', right' := left, right;
    var i := 0;
    while i < frames
      invariant 0 <= i <= frames
      invariant |left'| == |left| && |right'| == |right|
      invariant forall j :: 0 <= j < i ==> left'[j] == SampleAt(buffer, j * fs)
      invariant forall j :: i <= j < |left| ==> left'[j] == left[j]
      invariant channels == 2 ==> forall j :: 0 <= j < i ==> right'[j] == SampleAt(buffer, j * fs + 2)
      invariant forall j :: i <= j < |right| ==> right'[j] == right[j]
      invariant channels != 2 ==> right' == right
    {
      var base := i * fs;
      assert base + fs <= bytesRead;
      left' := left'[i := SampleAt(buffer, base)];
      if channels == 2 {
        right' := right'[i := SampleAt(buffer, base + 2)];
      }
      i := i + 1;
    }
  }

  /** The frame of an encoded buffer that starts at byte i * frameSize. */
  function FrameAt(buffer: seq<byte>, i: nat, fs: nat): seq<byte>
    requires i * fs + fs <= |buffer|
  {
    buffer[i * fs .. i * fs + fs]
  }

  /**
    Encodes the first `frames` samples of each channel into a fresh buffer of
    frames * frameSize bytes; frame i holds `FrameBytes` of left[i] and, when
    stereo, right[i].
  */
  method EncodeDoublesToBytes(left: seq<real>, right: seq<real>, frames: nat, channels: nat)
    returns (buffer: seq<byte>)
    requires channels >= 1
    requires frames <= |left|
    requires channels == 2 ==> frames <= |right|
    ensures |buffer| == frames * FrameSize(channels)
    ensures forall i :: 0 <= i < frames ==>
      i * FrameSize(channels) + FrameSize(channels) <= |buffer| &&
      FrameAt(buffer, i, FrameSize(channels)) ==
        FrameBytes(left[i], RightOrSilence(right, i, channels), channels)
  {
    var fs := FrameSize(channels);
    buffer := [];
    var i := 0;
    while i < frames
      invariant 0 <= i <= frames
      invariant |buffer| == i * fs
      invariant forall j :: 0 <= j < i ==>
        j * fs + fs <= |buffer| &&
        FrameAt(buffer, j, fs) == FrameBytes(left[j], RightOrSilence(right, j, channels), channels)
    {
      var fb := FrameBytes(left[i], RightOrSilence(right, i, channels), channels);
      AppendFrame(buffer, fb, i, fs);
      buffer := buffer + fb;
      i := i + 1;
    }
  }

  /** The right sample of frame i when the source is stereo; other channel counts encode only the left one. */
  function RightOrSilence(right: seq<real>, i: nat, channels: nat): real
    requires channels == 2 ==> i < |right|
  {
    if channels == 2 then right[i] else 0.0
  }

  /** Appending a frame to a buffer of i whole frames keeps them and adds frame i. */
  lemma AppendFrame(buffer: seq<byte>, fb: seq<byte>, i: nat, fs: nat)
    requires |buffer| == i * fs && |fb| == fs
    ensures |buffer + fb| == (i + 1) * fs
    ensures i * fs + fs <= |buffer + fb| && FrameAt(buffer + fb, i, fs) == fb
    ensures forall j :: 0 <= j < i ==>
      j * fs + fs <= |buffer| && FrameAt(buffer + fb, j, fs) == FrameAt(buffer, j, fs)
  {
    var next := buffer + fb;
    assert |next| == i * fs + fs == (i + 1) * fs;
    forall j | 0 <= j < i
      ensures j * fs + fs <= |buffer|
      ensures FrameAt(next, j, fs) == FrameAt(buffer, j, fs)
    {
      FrameWithin(j, i, fs);
      assert next[..|buffer|] == buffer;
    }
    assert next[i * fs ..] == fb;
  }

  /**
    The output block holds frames * frameSize bytes. The source hands the sink
    bytesRead bytes of it, which stays inside the block exactly when bytesRead
    is a whole number of frames.
  */
  lemma WriteLengthFitsEncodedBlock(bytesRead: nat, channels: nat)
    requires channels >= 1
    ensures var fs := FrameSize(channels);
      (bytesRead <= (bytesRead / fs) * fs <==> bytesRead % fs == 0) &&
      (bytesRead % fs != 0 ==> (bytesRead / fs) * fs < bytesRead)
  {
  }

  /** A read into the 2 * BufferSize byte buffer never yields more frames than a sample array holds. */
  lemma FramesFitSampleArrays(bytesRead: nat, channels: nat)
    requires channels >= 1 && bytesRead <= 2 * BufferSize
    ensures bytesRead / FrameSize(channels) <= BufferSize
  {
    var fs := FrameSize(channels);
    var q := bytesRead / fs;
    assert q * fs <= bytesRead;
    MulMonotone(2, fs, q);
    assert q * 2 <= 2 * BufferSize;
  }
}

=== FILE: playback.dfy ===
/**
  The per-block arithmetic of the playback loop around the codec and the
  gain state: where a seek lands, the noise gate, the per-sample chain
  gate -> filter cascade -> soft clip, and the block handed to the spectrum.

  `Math.tanh` is the parameter `clip`, and the Hann window value
  0.5 * (1 - cos(2 pi i / (valid - 1))) is the parameter `window` applied as
  `window(i, valid)`.
*/
module Playback {
  import opened ComplexNumbers
  import opened PowersOfTwo
  import opened FFT
  import opened EqualizerFilter
  import opened PcmCodec
  import GainControl

  type EqState = GainControl.EqState

  // ---------------------------------------------------------------------------
  // Seeking

  /**
    The byte the progress slider points at, `(long) (totalBytes * (value / (double) max))`:
    for a slider value in [0, max] it lies in the stream, at its start for 0
    and at its end for max.
  */
  function SeekByte(sliderValue: int, sliderMax: int, totalBytes: int): (b: int)
    requires sliderMax > 0
    ensures 0 <= sliderValue <= sliderMax && totalBytes >= 0 ==> 0 <= b <= totalBytes
    ensures sliderValue == 0 ==> b == 0
    ensures sliderValue == sliderMax ==> b == totalBytes
  {
    var x := totalBytes as real * (sliderValue as real / sliderMax as real);
    if sliderValue == 0 then
      assert x == 0.0;
      TruncToInt(x)
    else if sliderValue == sliderMax then
      assert sliderValue as real / sliderMax as real == 1.0;
      assert x == totalBytes as real;
      TruncToInt(x)
    else if 0 <= sliderValue <= sliderMax && totalBytes >= 0 then
      FractionOfWhole(totalBytes as real, sliderValue as real, sliderMax as real);
      TruncWithin(x, totalBytes);
      TruncToInt(x)
    else
      TruncToInt(x)
  }

  /** Java's long division for b > 0: the quotient is truncated toward zero. */
  function JavaQuot(a: int, b: int): (q: int)
    requires b > 0
    ensures a >= 0 ==> 0 <= b * q <= a < b * q + b
    ensures a < 0 ==> b * q - b < a <= b * q <= 0
  {
    if a >= 0 then
      DivBounds(a, b);
      a / b
    else
      DivBounds(-a, b);
      -((-a) / b)
  }

  lemma DivBounds(a: int, b: int)
    requires a >= 0 && b > 0
    ensures 0 <= b * (a / b) <= a < b * (a / b) + b
  {
    var q, r := a / b, a % b;
    assert a == b * q + r && 0 <= r < b;
  }

  /**
    Java's `a % b` for b > 0, through the identity (a / b) * b + a % b == a
    that fixes it in the language: the remainder takes the sign of a.
  */
  function JavaRem(a: int, b: int): (r: int)
    requires b > 0
    ensures a >= 0 ==> 0 <= r < b
    ensures a < 0 ==> -b < r <= 0
  {
    a - b * JavaQuot(a, b)
  }

  /**
    `targetByte -= targetByte % frameSize`: rounds toward zero to a whole
    number of frames.
  */
  function AlignToFrame(target: int, frameSize: int): (r: int)
    requires frameSize >= 1
    ensures r == frameSize * JavaQuot(target, frameSize)
    ensures target >= 0 ==> 0 <= r <= target && target - r < frameSize
    ensures target < 0 ==> target <= r <= 0 && r - target < frameSize
  {
    target - JavaRem(target, frameSize)
  }

  /** Where a seek request lands: a whole number of frames, never past the byte the slider points at. */
  function SeekTarget(sliderValue: int, sliderMax: int, totalBytes: int, frameSize: int): (t: int)
    requires sliderMax > 0 && frameSize >= 1
    ensures t == frameSize * JavaQuot(SeekByte(sliderValue, sliderMax, totalBytes), frameSize)
    ensures SeekByte(sliderValue, sliderMax, totalBytes) >= 0 ==> t <= SeekByte(sliderValue, sliderMax, totalBytes)
  {
    AlignToFrame(SeekByte(sliderValue, sliderMax, totalBytes), frameSize)
  }

  /**
    For a slider value in [0, max] the seek lands on a frame boundary inside
    the stream, at or before the byte the slider points at, and less than one
    frame before it.
  */
  lemma SeekTargetInStream(sliderValue: int, sliderMax: int, totalBytes: int, frameSize: int)
    requires sliderMax > 0 && frameSize >= 1
    requires 0 <= sliderValue <= sliderMax && totalBytes >= 0
    ensures var t := SeekTarget(sliderValue, sliderMax, totalBytes, frameSize);
      && t == frameSize * JavaQuot(SeekByte(sliderValue, sliderMax, totalBytes), frameSize)
      && 0 <= t <= SeekByte(sliderValue, sliderMax, totalBytes) <= totalBytes
      && SeekByte(sliderValue, sliderMax, totalBytes) - t < frameSize
  {
    var x := totalBytes as real * (sliderValue as real / sliderMax as real);
    FractionOfWhole(totalBytes as real, sliderValue as real, sliderMax as real);
    var b := SeekByte(sliderValue, sliderMax, totalBytes);
    assert b == TruncToInt(x);
    assert 0 <= b && b as real <= totalBytes as real;
    var t := AlignToFrame(b, frameSize);
    assert 0 <= t <= b && b - t < frameSize;
  }

  lemma TruncWithin(x: real, t: int)
    requires 0.0 <= x <= t as real
    ensures 0 <= TruncToInt(x) <= t
  {
    assert TruncToInt(x) as real <= t as real;
  }

  /** t * (v / m) lies in [0, t] for 0 <= v <= m and t >= 0. */
  lemma FractionOfWhole(t: real, v: real, m: real)
    requires m > 0.0 && 0.0 <= v <= m && t >= 0.0
    ensures 0.0 <= t * (v / m) <= t
  {
    var f := v / m;
    assert f * m == v;
    assert 0.0 <= f <= 1.0;
    assert t - t * f == t * (1.0 - f);
  }

  // ---------------------------------------------------------------------------
  // Noise gate

  const GateThreshold: real := 0.001
  const GateFactor: real := 0.1

  /** A sample quieter than the threshold is attenuated to a tenth; louder samples pass. */
  function Gate(s: real): (g: real)
    ensures (g < 0.0 <==> s < 0.0) && (g > 0.0 <==> s > 0.0)
    ensures 0.0 <= s ==> g <= s
    ensures s <= 0.0 ==> s <= g
  {
    if -GateThreshold < s < GateThreshold then s * GateFactor else s
  }

  /**
    The gate scales exactly the samples below the threshold by 0.1, leaves a
    sample unchanged exactly when it is zero or at least the threshold in
    magnitude, keeps its sign and never amplifies.
  */
  lemma GateProperties(s: real)
    ensures -GateThreshold < s < GateThreshold ==> Gate(s) == 0.1 * s
    ensures Gate(s) == s <==> (s == 0.0 || s <= -GateThreshold || GateThreshold <= s)
    ensures (Gate(s) < 0.0 <==> s < 0.0) && (Gate(s) > 0.0 <==> s > 0.0)
    ensures -GateThreshold < s < GateThreshold ==> -GateThreshold < Gate(s) < GateThreshold
    ensures 0.0 <= s ==> Gate(s) <= s
    ensures s <= 0.0 ==> s <= Gate(s)
  {
  }

  // ---------------------------------------------------------------------------
  // Filter cascade and the per-sample chain

  /** A sample through every band of one channel in ascending order, each band's memory advancing. */
  function Cascade(bank: seq<Filter>, x: real): (r: (real, seq<Filter>))
    ensures |r.1| == |bank|
    ensures forall i :: 0 <= i < |bank| ==> r.1[i].c == bank[i].c && r.1[i].design == bank[i].design
    decreases |bank|
  {
    if bank == [] then (x, [])
    else
      var (y, f) := Process(bank[0], x);
      var (z, rest) := Cascade(bank[1..], y);
      (z, [f] + rest)
  }

  predicate FlatAndBalanced(bank: seq<Filter>) {
    forall i :: 0 <= i < |bank| ==> IsFlat(bank[i].c) && Balanced(bank[i].m)
  }

  predicate AllSilent(bank: seq<Filter>) {
    forall i :: 0 <= i < |bank| ==> bank[i].m == Silence
  }

  /** A bank of flat filters with balanced memory passes a sample through and stays balanced. */
  lemma {:induction false} FlatCascadeIsIdentity(bank: seq<Filter>, x: real)
    requires FlatAndBalanced(bank)
    ensures Cascade(bank, x).0 == x && FlatAndBalanced(Cascade(bank, x).1)
    decreases |bank|
  {
    if bank != [] {
      FlatProcessIsIdentity(bank[0], x);
      FlatCascadeIsIdentity(bank[1..], x);
    }
  }

  /** Silence through a bank with silent memory stays silence, whatever its gains. */
  lemma {:induction false} SilentCascade(bank: seq<Filter>)
    requires AllSilent(bank)
    ensures Cascade(bank, 0.0).0 == 0.0 && AllSilent(Cascade(bank, 0.0).1)
    decreases |bank|
  {
    if bank != [] {
      SilenceStaysSilent(bank[0]);
      SilentCascade(bank[1..]);
    }
  }

  /**
    One frame of the loop: gate (both samples when stereo, only the left one
    otherwise), the left cascade and soft clip, and for stereo the right
    cascade and soft clip. A mono right sample is left untouched.
  */
  function ProcessFrame(ch: EqState, l: real, r: real, gate: bool, clip: real -> real): (out: (real, real, EqState))
    ensures out.2.channels == ch.channels && |out.2.left| == |ch.left| && |out.2.right| == |ch.right|
    ensures ch.channels != 2 ==> out.1 == r && out.2.right == ch.right
  {
    var l0 := if gate then Gate(l) else l;
    var r0 := if gate && ch.channels == 2 then Gate(r) else r;
    var (lf, left) := Cascade(ch.left, l0);
    if ch.channels == 2 then
      var (rf, right) := Cascade(ch.right, r0);
      (clip(lf), clip(rf), ch.(left := left, right := right))
    else
      (clip(lf), r0, ch.(left := left))
  }

  /** Frames i, i + 1, ..., frames - 1 of a block, processed in order and written back in place. */
  function ProcessFrom(ch: EqState, ls: seq<real>, rs: seq<real>, i: nat, frames: nat, gate: bool, clip: real -> real)
    : (out: (seq<real>, seq<real>, EqState))
    requires i <= frames <= |ls| && frames <= |rs|
    ensures |out.0| == |ls| && |out.1| == |rs|
    ensures forall j :: 0 <= j < i || frames <= j < |ls| ==> out.0[j] == ls[j]
    ensures forall j :: 0 <= j < i || frames <= j < |rs| ==> out.1[j] == rs[j]
    decreases frames - i
  {
    if i == frames then (ls, rs, ch)
    else
      var (l, r, next) := ProcessFrame(ch, ls[i], rs[i], gate, clip);
      ProcessFrom(next, ls[i := l], rs[i := r], i + 1, frames, gate, clip)
  }

  /**
    With every band flat (all gains 0 dB) and memory balanced, and the gate
    off, the loop's only effect on a sample is the soft clip.
  */
  lemma {:induction false} FlatChainOnlyClips(ch: EqState, ls: seq<real>, rs: seq<real>, i: nat, frames: nat, clip: real -> real)
    requires i <= frames <= |ls| && frames <= |rs|
    requires FlatAndBalanced(ch.left) && FlatAndBalanced(ch.right)
    ensures var out := ProcessFrom(ch, ls, rs, i, frames, false, clip);
      && (forall j :: i <= j < frames ==> out.0[j] == clip(ls[j]))
      && (forall j :: i <= j < frames ==> out.1[j] == if ch.channels == 2 then clip(rs[j]) else rs[j])
    decreases frames - i
  {
    if i < frames {
      var (l, r, next) := ProcessFrame(ch, ls[i], rs[i], false, clip);
      FlatCascadeIsIdentity(ch.left, ls[i]);
      FlatCascadeIsIdentity(ch.right, rs[i]);
      FlatChainOnlyClips(next, ls[i := l], rs[i := r], i + 1, frames, clip);
    }
  }

  /** Right after playback starts every band is at 0 dB, so the gate-off loop only soft-clips. */
  lemma InitialChainOnlyClips(designs: seq<Design>, channels: int, ls: seq<real>, rs: seq<real>, frames: nat,
                              clip: real -> real)
    requires |designs| == GainControl.Bands
    requires forall i :: 0 <= i < GainControl.Bands ==> Admissible(designs[i], 1.0)
    requires frames <= |ls| && frames <= |rs|
    ensures var out := ProcessFrom(GainControl.Initial(designs, channels), ls, rs, 0, frames, false, clip);
      forall j :: 0 <= j < frames ==> out.0[j] == clip(ls[j])
  {
    FlatChainOnlyClips(GainControl.Initial(designs, channels), ls, rs, 0, frames, clip);
  }

  /**
    Silence in, with silent filter memory, the gate on and a soft clip that
    maps 0 to 0: silence out, and the memory stays silent.
  */
  lemma {:induction false} SilenceInSilenceOut(ch: EqState, ls: seq<real>, rs: seq<real>, i: nat, frames: nat, clip: real -> real)
    requires i <= frames <= |ls| && frames <= |rs|
    requires AllSilent(ch.left) && AllSilent(ch.right) && clip(0.0) == 0.0
    requires forall j :: i <= j < frames ==> ls[j] == 0.0 && rs[j] == 0.0
    ensures var out := ProcessFrom(ch, ls, rs, i, frames, true, clip);
      && (forall j :: i <= j < frames ==> out.0[j] == 0.0 && out.1[j] == 0.0)
      && AllSilent(out.2.left) && AllSilent(out.2.right)
    decreases frames - i
  {
    if i < frames {
      var (l, r, next) := ProcessFrame(ch, ls[i], rs[i], true, clip);
      SilentCascade(ch.left);
      SilentCascade(ch.right);
      assert l == 0.0 && r == 0.0;
      SilenceInSilenceOut(next, ls[i := l], rs[i := r], i + 1, frames, clip);
    }
  }

  // ---------------------------------------------------------------------------
  // Spectrum input

  const FullScale: real := 32767.0

  /** The mono value of a frame: the left sample, or for stereo the mean of both, which lies between them. */
  function MonoMix(l: real, r: real, channels: int): (m: real)
    ensures channels != 2 ==> m == l
    ensures channels == 2 ==> (l <= r ==> l <= m <= r) && (r <= l ==> r <= m <= l)
  {
    if channels == 2 then (l + r) * 0.5 else l
  }

  /**
    The block handed to the transform: the first `frames` mono samples,
    windowed and scaled to full scale as real parts, zero-padded on the right
    to `BufferSize` when shorter.
  */
  function VisSignal(ls: seq<real>, rs: seq<real>, frames: nat, channels: int, window: (nat, nat) -> real)
    : (v: seq<Complex>)
    requires frames <= |ls| && frames <= |rs|
    ensures frames <= BufferSize ==> |v| == BufferSize
    ensures frames > BufferSize ==> |v| == frames
    ensures forall i :: 0 <= i < frames ==>
      v[i] == Complex(MonoMix(ls[i], rs[i], channels) * FullScale * window(i, frames), 0.0)
    ensures forall i :: frames <= i < |v| ==> v[i] == Zero
    ensures forall i :: 0 <= i < |v| ==> v[i].im == 0.0
  {
    var vis := seq(frames, i requires 0 <= i < frames =>
      Complex(MonoMix(ls[i], rs[i], channels) * FullScale * window(i, frames), 0.0));
    if |vis| < BufferSize then Pad(vis, BufferSize) else vis
  }

  lemma BufferSizeIsPow2()
    ensures IsPow2(BufferSize)
  {
    assert IsPow2(1) && IsPow2(2) && IsPow2(4) && IsPow2(8) && IsPow2(16) && IsPow2(32);
    assert IsPow2(64) && IsPow2(128) && IsPow2(256) && IsPow2(512) && IsPow2(1024);
    assert IsPow2(2048) && IsPow2(4096);
  }

  /**
    Since a block never holds more than `BufferSize` frames, the transform
    receives exactly `BufferSize` values, a power of two, and returns that many
    bins without padding again.
  */
  lemma SpectrumHasBufferSizeBins(ls: seq<real>, rs: seq<real>, bytesRead: nat, channels: nat,
                                  window: (nat, nat) -> real, w: Twiddle)
    requires channels >= 1 && bytesRead <= 2 * BufferSize
    requires bytesRead / FrameSize(channels) <= |ls| && bytesRead / FrameSize(channels) <= |rs|
    ensures var v := VisSignal(ls, rs, bytesRead / FrameSize(channels), channels, window);
      |v| == BufferSize && |Fft(v, w)| == BufferSize
  {
    FramesFitSampleArrays(bytesRead, channels);
    BufferSizeIsPow2();
  }

  /** A silent block, or an empty one at the end of the stream, has an all-zero spectrum. */
  lemma SilentBlockHasZeroSpectrum(ls: seq<real>, rs: seq<real>, frames: nat, channels: int,
                                   window: (nat, nat) -> real, w: Twiddle)
    requires frames <= BufferSize && frames <= |ls| && frames <= |rs|
    requires forall i :: 0 <= i < frames ==> ls[i] == 0.0 && rs[i] == 0.0
    ensures Fft(VisSignal(ls, rs, frames, channels, window), w) == Zeros(BufferSize)
  {
    var v := VisSignal(ls, rs, frames, channels, window);
    forall i | 0 <= i < BufferSize
      ensures v[i] == Zero
    {
      if i < frames {
        assert MonoMix(ls[i], rs[i], channels) == 0.0;
      }
    }
    assert v == Zeros(BufferSize);
    BufferSizeIsPow2();
    FftOfZeros(BufferSize, w);
  }
}

=== FILE: pow2.dfy ===
/**
  Powers of two and the two bit tricks the transform uses to find them: the
  test `n & (n - 1)` and `Integer.highestOneBit`.
*/
module PowersOfTwo {

  predicate IsPow2(n: nat)
    decreases n
  {
    n == 1 || (n >= 2 && n % 2 == 0 && IsPow2(n / 2))
  }

  /** Bitwise AND of two non-negative integers, taken bit by bit from the least significant end. */
  function BitAnd(a: nat, b: nat): (r: nat)
    ensures r <= a && r <= b
    decreases a
  {
    if a == 0 || b == 0 then 0
    else 2 * BitAnd(a / 2, b / 2) + (if a % 2 == 1 && b % 2 == 1 then 1 else 0)
  }

  /**
    The transform's test `(n & (n - 1)) == 0` on an array length n. For n == 0
    the right operand is -1, all ones in two's complement, and `0 & -1` is 0:
    the empty array passes the test as if it were a power of two.
  */
  function PassesPow2Test(n: nat): (passes: bool)
    ensures n == 0 ==> passes
    ensures n >= 1 ==> (passes <==> IsPow2(n))
  {
    if n == 0 then true
    else
      Pow2TestCorrect(n);
      BitAnd(n, n - 1) == 0
  }

  lemma {:induction false} BitAndSelf(m: nat)
    ensures BitAnd(m, m) == m
    decreases m
  {
    if m != 0 {
      BitAndSelf(m / 2);
    }
  }

  /** On every positive length the bit trick decides exactly the powers of two. */
  lemma {:induction false} Pow2TestCorrect(n: nat)
    requires n >= 1
    ensures BitAnd(n, n - 1) == 0 <==> IsPow2(n)
    decreases n
  {
    if n == 1 {
      assert BitAnd(1, 0) == 0;
    } else if n % 2 == 0 {
      var m := n / 2;
      assert BitAnd(n, n - 1) == 2 * BitAnd(m, m - 1);
      Pow2TestCorrect(m);
    } else {
      var m := n / 2;
      assert BitAnd(n, n - 1) == 2 * BitAnd(m, m);
      BitAndSelf(m);
      assert !IsPow2(n);
    }
  }

  /** `Integer.highestOneBit(n)`: the largest power of two not above n. */
  function HighestOneBit(n: nat): (h: nat)
    requires n >= 1
    ensures IsPow2(h) && h <= n < 2 * h
    decreases n
  {
    if n == 1 then 1 else 2 * HighestOneBit(n / 2)
  }

  /** There is no power of two strictly between h and 2 * h. */
  lemma {:induction false} Pow2Gap(h: nat, p: nat)
    requires IsPow2(h) && IsPow2(p) && h < p
    ensures 2 * h <= p
    decreases h
  {
    if h != 1 {
      Pow2Gap(h / 2, p / 2);
    }
  }

  lemma AboveHighestOneBit(n: nat, h: nat)
    requires n >= 1 && !IsPow2(n) && h == HighestOneBit(n)
    ensures forall q: nat {:trigger IsPow2(q)} :: IsPow2(q) && n <= q ==> 2 * h <= q
  {
    forall q: nat | IsPow2(q) && n <= q
      ensures 2 * h <= q
    {
      Pow2Gap(h, q);
    }
  }

  /** The smallest power of two that is at least n. */
  function NextPow2(n: nat): (p: nat)
    requires n >= 1
    ensures IsPow2(p) && n <= p
    ensures forall q: nat {:trigger IsPow2(q)} :: IsPow2(q) && n <= q ==> p <= q
    ensures p == n <==> IsPow2(n)
  {
    if IsPow2(n) then n
    else
      var h := HighestOneBit(n);
      AboveHighestOneBit(n, h);
      2 * h
  }

  /** The padded length the transform computes, `highestOneBit(n) << 1`, is that smallest power of two. */
  lemma PaddedLengthIsNextPow2(n: nat)
    requires n >= 1 && !IsPow2(n)
    ensures 2 * HighestOneBit(n) == NextPow2(n)
    ensures NextPow2(2 * HighestOneBit(n)) == 2 * HighestOneBit(n)
  {
    assert IsPow2(2 * HighestOneBit(n));
  }

  /** Halving a power of two of at least 2 yields a power of two. */
  lemma HalfOfPow2(n: nat)
    requires IsPow2(n) && n >= 2
    ensures IsPow2(n / 2) && NextPow2(n / 2) == n / 2 && n % 2 == 0
  {
  }
}
